=== FILE: README.md ===
# Pong scripts, modelled in Dafny

This project models the game logic of a two-paddle Pong game built from Unity
scripts, over mathematical reals. It covers four scripts.

- **The 2.5D ball** (`Assets/Scripts/Ball.cs`, module `BallEngine` in `ball.dfy`). The model covers:
  - the per-frame z pinning and speed clamp;
  - `ResetBall`;
  - the random serve, with its floor on the horizontal component;
  - the directed serve toward one side;
  - collision response for walls, paddles and any other collider;
  - the goal triggers, which announce "Left"/"Right", reset the ball and schedule a serve.

  The engine's delayed `Invoke` becomes a FIFO queue of pending invocations. Every invocation uses the same `serveDelay`, so they fire in the order they were scheduled.
- **The computer paddle** (`PongClone/Assets/Scripts/PaddleRight.cs`, module `PaddleRightAi` in `paddle_right.dfy`). One tick does four things in order:
  - choose a target: a short prediction of the ball, or the court centre;
  - clamp the target to the court;
  - smooth it with the reaction filter;
  - move toward it, with a dead zone and a per-tick step limit.

  `SetVerticalLimits` and the state captured in `Start` are modelled too.
- **The player paddle** (`PongClone/Assets/Scripts/PaddleLeft.cs`, module `PaddleLeftInput` in `paddle_left.dfy`). W/S keys give an axis value. The paddle steps by `axis * speed * dt` and is clamped to the camera's view.
- **The 2D ball** (`PongClone/Assets/Scripts/Ball.cs`, module `FixedLeftBall` in `fixed_left_ball.dfy`):
  - it always launches left with a small random tilt;
  - a reset relaunches it after a delay, modelled as a count of pending launches;
  - every bounce restores its speed while keeping its direction.
- **A worked slowdown** (module `BallSlowdown` in `ball_slowdown.dfy`) shows, with the 2.5D ball's defaults, a collision that leaves the ball below the speed floor until the next frame.

Two shared modules hold the engine's math:

- `Mathf` (`mathf.dfy`) holds `Abs`, `Sign`, `Clamp`, `Lerp` and `MoveTowards` with the engine's edge cases:
  - `Sign(0) = +1`;
  - `Clamp` tests the lower bound first;
  - `Lerp` clamps its factor into [0, 1].
- `Vectors` (`vectors.dfy`) holds the vector operations. `normalized` returns the zero vector at magnitude 1e-5 or less, and `Reflect` is `v - 2(v.n)n`.

Parameters stand in for things the model does not compute:

- **Square root.** Passed as a function `sqrt`. `IsSqrt(sqrt)` requires that `sqrt(x) >= 0` and `sqrt(x)^2 == x` for every `x >= 0`. Magnitudes are stated as squared lengths.
- **Random draws.** Passed in as parameters.
- **Serve angle.** Its cosine and sine arrive as a pair with `c^2 + s^2 = 1`.
- **Reaction filter.** Its blend factor `1 - exp(-dt / reactionLag)` arrives as a parameter. `Lerp` clamps it into [0, 1].

## Model

| member | source | states |
|---|---|---|
| Mathf.Abs | Assets/Scripts/Ball.cs:86 | The engine's `Mathf.Abs`: non-negative, and either the value or its negation. |
| Mathf.Min | Assets/Scripts/Ball.cs:142 | The engine's `Mathf.Min`: no larger than either argument, and equal to one of them. |
| Mathf.Max | Assets/Scripts/Ball.cs:128 | The engine's `Mathf.Max`: no smaller than either argument, and equal to one of them. |
| Mathf.Sign | Assets/Scripts/Ball.cs:131 | The engine's sign is ±1 and `Sign(f) * f == Abs(f)`; it is +1 exactly when f ≥ 0, so zero counts as positive. |
| Mathf.Clamp | PongClone/Assets/Scripts/PaddleRight.cs:70 | With ordered bounds the result lies between them, and a value already inside comes back unchanged. A value below `lo` gives `lo`, and one above ordered bounds gives `hi`. With inverted bounds the result is still the value or one of the bounds. |
| Mathf.ClampIsMinMax | Assets/Scripts/Ball.cs:63 | For ordered bounds the clamp agrees with the reference definition `Min(Max(value, lo), hi)`. |
| Mathf.ClampInverted | PongClone/Assets/Scripts/PaddleRight.cs:70 | With `hi < lo`: values below `lo` clamp to `lo`, and everything else clamps to `hi`. |
| Mathf.Lerp | PongClone/Assets/Scripts/PaddleRight.cs:76-77 | The blend lies between the two endpoints for any factor. A factor ≤ 0 gives the start and one ≥ 1 gives the end. For a factor t in [0, 1], the gap left to the end is exactly (1 - t) times the whole gap. |
| Mathf.Fraction | PongClone/Assets/Scripts/PaddleRight.cs:77 | The part `d·u` of a difference, for u in [0, 1]: it lies between 0 and `d`, and is 0 at u = 0 and `d` at u = 1. |
| Mathf.MoveTowards | PongClone/Assets/Scripts/PaddleRight.cs:90-91 | A target within reach is reached exactly. Otherwise the move is at most `maxDelta`, never passes the target, and closes the gap by exactly `maxDelta`. |
| Vectors.Normalized | Assets/Scripts/Ball.cs:62 | A vector longer than the engine's epsilon becomes a unit vector with the same direction. A shorter one becomes the zero vector. |
| Vectors.NormalizedIdempotent | Assets/Scripts/Ball.cs:99 | Normalising twice is normalising once. |
| Vectors.SqrMagnitude | Assets/Scripts/Ball.cs:60 | The engine's `sqrMagnitude`, the guard of the speed fix: never negative. |
| Vectors.SqrMagnitudeZero | Assets/Scripts/Ball.cs:60 | Squared length 0 holds exactly for the zero vector. |
| Vectors.SqrMagnitudeScale | Assets/Scripts/Ball.cs:64 | `v * k` has squared length k² times that of v, so a unit direction times the speed has squared length speed². |
| Vectors.ScaleAligned | Assets/Scripts/Ball.cs:64 | `v * k` with k ≥ 0 points the same way as v. |
| Vectors.Reflect | Assets/Scripts/Ball.cs:112 | The reflection keeps the component across the normal (equal cross products with it). For a unit normal it negates the component along the normal and keeps the length. |
| Vectors.ReflectInvolution | Assets/Scripts/Ball.cs:112 | Reflecting twice about the same unit normal gives back the original velocity. |
| Vectors.Flatten | Assets/Scripts/Ball.cs:173 | The engine's `KeepZ`: z becomes 0, and x and y are kept. |
| Vectors.FlattenScaledAligned | Assets/Scripts/Ball.cs:149 | Scaling by two non-negative factors and then dropping z points the same way as dropping z from the unscaled vector. |
| Vectors.Normalized2 | PongClone/Assets/Scripts/Ball.cs:34 | The 2D `normalized`: a unit vector along a long enough input, zero otherwise. |
| Vectors.LiftNormalized2 | PongClone/Assets/Scripts/Ball.cs:19 | Normalising in the plane agrees with normalising the same vector embedded at z = 0. |
| BallEngine.MinSpeed | Assets/Scripts/Ball.cs:63 | The frame's speed floor, three quarters of `startSpeed`: between 0 and `startSpeed` for a non-negative start speed, and strictly below a positive one. |
| BallEngine.PinZ | Assets/Scripts/Ball.cs:54-57 | x and y are kept. With z locked, z ends within 0.0001 of `fixedZ`, and equals it when it had drifted further. Unlocked, or locked with z within 0.0001, the position is untouched. |
| BallEngine.Update | Assets/Scripts/Ball.cs:51-66 | A ball at or below squared speed 0.0001 keeps its velocity and `currentSpeed`. Otherwise `currentSpeed` is clamped into [0.75·startSpeed, maxSpeed], and the velocity gets exactly that length along its old direction. |
| BallEngine.ResetBall | Assets/Scripts/Ball.cs:69-74 | The ball ends at rest on the spawn point with the start speed. Scheduled serves are not cancelled. |
| BallEngine.ResetIdempotent | Assets/Scripts/Ball.cs:69-74 | Resetting twice equals resetting once. |
| BallEngine.XSign | Assets/Scripts/Ball.cs:79 | The random serve goes left exactly when the uniform draw is below 0.5. |
| BallEngine.FloorX | Assets/Scripts/Ball.cs:86-90 | The floor keeps a unit direction unit and flat. It leaves a direction whose abs(x) already meets the floor untouched. When it fires, the result points along the direction with x replaced by `xSign·minAbsXDir`: x takes the chosen sign and strictly grows in magnitude (unless y and z were zero), yet stays below `minAbsXDir`. y keeps its sign in every case. |
| BallEngine.ServeRandomDir | Assets/Scripts/Ball.cs:79-90 | The serve direction is a flat unit vector whose y has the sign of sin. When abs(cos) meets the floor it is exactly `(s·cos, sin, 0)`. When the floor fires it points along `(s·minAbsXDir, sin, 0)`, heads to the drawn side, and abs(x) never shrinks. |
| BallEngine.ServeRandom | Assets/Scripts/Ball.cs:76-93 | The velocity is flat with length `currentSpeed`. Its x-sign is the drawn side whenever cos > 0 or the floor fires. With a positive speed its y has the sign of sin. Without the floor it is exactly `(s·cos, sin, 0)·currentSpeed`. Position, speed and queue are kept. |
| BallEngine.ServeToDir | Assets/Scripts/Ball.cs:97-99 | The directed serve direction is a flat unit vector whose x has the requested sign, whatever the draw. |
| BallEngine.ServeTo | Assets/Scripts/Ball.cs:95-100 | The velocity is flat, has length `currentSpeed`, and has x > 0 when serving right and x < 0 when serving left. `currentSpeed` is unchanged. |
| BallEngine.ServeToUnfloored | Assets/Scripts/Ball.cs:97-98 | With the script's draw range (abs(offset) ≤ 0.25) and a floor of at most 0.9, the floor never fires: the direction is plain `(±1, offset, 0).normalized`. |
| BallEngine.HalfHeight | Assets/Scripts/Ball.cs:124-126 | The paddle's half-height is its box collider's vertical extent, or 0.5 when it has no box collider. |
| BallEngine.PaddleOffset | Assets/Scripts/Ball.cs:124-128 | The hit offset is in [-1, 1] and on the ball's side of the paddle centre. It is zero exactly at the centre. Within the half-height (floored at 0.001) it is exact and unclamped. At or beyond it, it is exactly ±1 with the sign of the distance. |
| BallEngine.Tilt | Assets/Scripts/Ball.cs:132 | The vertical part of the bounce, `offset·hitInfluence + jitter`: a centre hit or a zero `hitInfluence` leaves only the jitter. |
| BallEngine.BounceRaw | Assets/Scripts/Ball.cs:131-132 | The raw paddle bounce is flat. Its x is -1 exactly when the ball came in moving right and +1 otherwise, a ball with zero x included. A centre hit leaves only the jitter as its y. |
| BallEngine.BounceTiltBounded | Assets/Scripts/Ball.cs:128-132 | With the jitter inside `[-jitterY, jitterY]` and a non-negative `hitInfluence`, the raw bounce's y is at most `hitInfluence + jitterY` in size, and within `jitterY` of `offset·hitInfluence`. |
| BallEngine.BounceUnfloored | Assets/Scripts/Ball.cs:131-132 | The paddle bounce before the floor is a flat unit vector along `(Sign(-vx), offset·hitInfluence + jitter, 0)`. Its x has the sign `Sign(-vx)`. Its y has the sign of the tilt `offset·hitInfluence + jitter`, and so is zero exactly when the tilt is. |
| BallEngine.PaddleBounceDir | Assets/Scripts/Ball.cs:131-139 | After the floor the direction is still a flat unit vector heading opposite the incoming x, and its y has the sign of the tilt. When abs(x) already meets `minAbsXDir` it is exactly the unfloored direction. A zero tilt gives exactly `(Sign(-vx), 0, 0)`. The floor never shrinks abs(x), and strictly raises it when it fires on a tilted direction. |
| BallEngine.PaddleBounceFloored | Assets/Scripts/Ball.cs:135-139 | When the floor fires, the paddle bounce direction points along the unfloored direction with x replaced by `Sign(-vx)·minAbsXDir`. |
| BallEngine.WallBounce | Assets/Scripts/Ball.cs:109-114 | The velocity is the flattened reflection at length `currentSpeed`, in the same direction, or zero when the reflection is too short. `currentSpeed` is unchanged. |
| BallEngine.PaddleHit | Assets/Scripts/Ball.cs:118-144 | `currentSpeed` becomes `min(currentSpeed + increment, maxSpeed)`, so it never exceeds the cap. With a non-negative increment it never drops below an in-cap speed. The velocity is exactly the bounce direction `PaddleBounceDir` scaled by that speed, so it is flat and has exactly that length. With a positive speed it heads opposite the incoming x, and its y has the sign of `offset·hitInfluence + jitter`. |
| BallEngine.OtherBounce | Assets/Scripts/Ball.cs:147-149 | z is dropped after scaling, so the length is at most `currentSpeed`. It equals `currentSpeed` when the reflection was already flat, and is zero when the reflection is too short. Otherwise, with a non-negative speed, the velocity points along the flattened reflection. |
| BallEngine.OnCollision | Assets/Scripts/Ball.cs:103-150 | Every collision leaves a flat velocity and keeps position and queue. Only a paddle changes `currentSpeed`, to the capped increment. |
| BallEngine.DeadCentreHit | Assets/Scripts/Ball.cs:128-143 | A jitter-free hit on the paddle centre sends the ball back horizontally, against its incoming x. |
| BallEngine.OnTrigger | Assets/Scripts/Ball.cs:152-167 | GoalLeft announces "Left", resets, and queues the serve to the right. GoalRight announces "Right", resets, and queues the serve to the left. Any other trigger changes nothing. |
| BallEngine.GoalListenerResetHarmless | Assets/Scripts/Ball.cs:157-158 | A goal listener that resets the ball before the trigger does changes nothing. |
| BallEngine.Start | Assets/Scripts/Ball.cs:45-49 | The ball starts at rest on the spawn point with a random serve queued. |
| BallEngine.RunPending | Assets/Scripts/Ball.cs:169-170 | Firing takes the oldest scheduled serve off the queue and launches at `currentSpeed` on a flat path. `ServeToRight` goes right and `ServeToLeft` goes left. An empty queue changes nothing. |
| BallEngine.GoalLeftServesRight | Assets/Scripts/Ball.cs:155-159 | After a goal on the left, the scheduled serve leaves the spawn point heading right at the start speed. |
| BallEngine.GoalRightServesLeft | Assets/Scripts/Ball.cs:161-165 | After a goal on the right, the scheduled serve leaves the spawn point heading left at the start speed. |
| BallEngine.StartIsSpeedBounded | Assets/Scripts/Ball.cs:45-49 | A sane configuration starts inside the speed invariant. |
| BallEngine.Step | Assets/Scripts/Ball.cs:51-170 | Under a sane configuration, a ball inside the speed invariant stays inside it after any frame, collision, trigger or fired serve. |
| BallEngine.StepKeepsSpeedBounded | Assets/Scripts/Ball.cs:51-170 | Every event keeps `currentSpeed` in [0.75·startSpeed, maxSpeed] and the ball no faster than it. |
| BallEngine.RunKeepsSpeedBounded | Assets/Scripts/Ball.cs:51-170 | Any sequence of ticks, collisions, triggers and fired serves keeps the invariant, so the ball never moves faster than `maxSpeed`. |
| BallEngine.DefaultsValid | Assets/Scripts/Ball.cs:9-11 | The inspector defaults are a sane configuration, with the frame's speed floor at 6, below `maxSpeed`. |
| BallSlowdown.GlancingBounce | Assets/Scripts/Ball.cs:147-149 | A ball moving along x at 8 that hits another collider with normal (0.6, 0, 0.8) leaves with velocity (2.24, 0, 0). |
| BallSlowdown.SlowedThenRescaled | Assets/Scripts/Ball.cs:59-64 | That ball is slower than the floor of 6, and the next `Update` gives it length 8 again. |
| PaddleRightAi.Start | PongClone/Assets/Scripts/PaddleRight.cs:33-47 | x and z are remembered. The filtered target starts at the paddle's height when there is a ball, and stays 0 when there is none. |
| PaddleRightAi.Predicting | PongClone/Assets/Scripts/PaddleRight.cs:57-58 | Prediction needs a ball with a rigidbody moving right; a ball with a rigidbody that stands or moves left is never predicted. |
| PaddleRightAi.ChooseTarget | PongClone/Assets/Scripts/PaddleRight.cs:57-67 | The target is the predicted ball height plus jitter only for a ball with a rigidbody moving right faster than 0.01. In every other case, including no rigidbody, it is `centerY`. With the jitter inside `[-aimJitter, aimJitter]`, a predicted target is within `aimJitter` of the predicted height. |
| PaddleRightAi.AimPoint | PongClone/Assets/Scripts/PaddleRight.cs:70 | The target clamped to the court: inside ordered limits, and unchanged when already inside. A target below the bottom limit gives the bottom limit, and one above ordered limits gives the top limit. |
| PaddleRightAi.Filter | PongClone/Assets/Scripts/PaddleRight.cs:73-82 | Without lag the filtered target is the target. With lag it lies between the old filtered target and the new target, whatever the blend. For a lag and a blend b in [0, 1], the gap left to the new target is exactly (1 - b) times the old gap. |
| PaddleRightAi.MoveY | PongClone/Assets/Scripts/PaddleRight.cs:85-93 | Inside the dead zone y stays put. Otherwise y moves toward the filtered target by at most `moveSpeed·dt` without passing it, and lands on it when within reach. Outside the dead zone, with a non-negative step, the gap to the target shrinks by exactly `moveSpeed·dt`, or to 0 when the target is within reach. |
| PaddleRightAi.Tick | PongClone/Assets/Scripts/PaddleRight.cs:49-99 | Without a ball nothing changes. With one, x and z are reset to the remembered values. The new filtered target lies between the old one and the clamped aim point, and equals the aim point without lag. Within the dead zone of the new filtered target the height is kept. Otherwise the height moves toward it: it lands on it when within reach, and with a non-negative step it moves at most `moveSpeed·dt`, without passing it, closing the gap by exactly that much. With ordered limits, a tick keeps the height and the filtered target inside them. |
| PaddleRightAi.SetVerticalLimits | PongClone/Assets/Scripts/PaddleRight.cs:102-106 | The limits are stored exactly as given, even out of order, and nothing else changes. |
| PaddleRightAi.TicksKeepInLimits | PongClone/Assets/Scripts/PaddleRight.cs:49-99 | The limit invariant survives any run of frames with non-negative frame times, each frame with its own view of the ball. |
| PaddleRightAi.NoBallStill | PongClone/Assets/Scripts/PaddleRight.cs:51 | Through frames that all lack a ball reference, the paddle never moves. |
| PaddleRightAi.NarrowedLimitsStrand | PongClone/Assets/Scripts/PaddleRight.cs:102-106 | Narrowing the limits (-5, 5) to (-1, 1) leaves a paddle at height 3 outside them, and through frames without a ball it stays at 3, outside the limits. |
| PaddleRightAi.InvertedLimitsAim | PongClone/Assets/Scripts/PaddleRight.cs:70 | Limits stored out of order make the aim point one of the limits: the bottom limit for a target below it, the top limit for anything else. |
| PaddleRightAi.DeadZoneRest | PongClone/Assets/Scripts/PaddleRight.cs:85-98 | Without lag, a paddle within the dead zone of its aim point does not move. |
| PaddleRightAi.DefaultsReactAtOnce | PongClone/Assets/Scripts/PaddleRight.cs:10-19 | With the inspector defaults (no reaction lag, limits ±3.5), a tick that sees the ball takes the clamped aim point as its filtered target, inside [-3.5, 3.5]. |
| PaddleLeftInput.InputAxis | PongClone/Assets/Scripts/PaddleLeft.cs:29-31 | The axis is +1 exactly when W is held, -1 exactly when only S is held, and 0 exactly when neither is. |
| PaddleLeftInput.Top | PongClone/Assets/Scripts/PaddleLeft.cs:37 | The highest centre height is non-negative exactly when the view is tall enough for the paddle. |
| PaddleLeftInput.Bottom | PongClone/Assets/Scripts/PaddleLeft.cs:38 | The lowest centre height mirrors the highest one about 0, and lies below it exactly when the view is tall enough. |
| PaddleLeftInput.Step | PongClone/Assets/Scripts/PaddleLeft.cs:34-39 | x is never changed. A view tall enough for the paddle keeps it inside. A step that stays in view is taken exactly. A step past the bottom stops on the bottom edge, and in a tall enough view a step past the top stops on the top edge. |
| PaddleLeftInput.IdleStays | PongClone/Assets/Scripts/PaddleLeft.cs:29-39 | With no key held, a paddle inside the view stays where it is. |
| PaddleLeftInput.KeysMoveTheWayTheyPoint | PongClone/Assets/Scripts/PaddleLeft.cs:29-39 | W never moves the paddle down, S alone never moves it up, and neither moves it more than `speed·dt`. |
| PaddleLeftInput.StepsStayInside | PongClone/Assets/Scripts/PaddleLeft.cs:26-43 | Any sequence of frames keeps a paddle that starts in view inside it, at the same x. |
| FixedLeftBall.LaunchVelocity | PongClone/Assets/Scripts/Ball.cs:19 | The launch velocity has length `speed`. For a positive speed it points left and tilts the way the draw does. |
| FixedLeftBall.LaunchDir | PongClone/Assets/Scripts/Ball.cs:17-19 | The launch direction is a unit vector along (-1, y). It points left and tilts the way the draw does. |
| FixedLeftBall.LaunchToLeft | PongClone/Assets/Scripts/Ball.cs:15-20 | The velocity has length `speed`. With a positive speed it points left, and its vertical sign is the draw's. Position and pending launches are kept. |
| FixedLeftBall.LaunchIsShallow | PongClone/Assets/Scripts/Ball.cs:18-19 | With the script's draw range abs(y) ≤ 0.5, the launch is at most half as steep as it is fast to the left. |
| FixedLeftBall.Start | PongClone/Assets/Scripts/Ball.cs:8-12 | The ball launches left at once at `speed`, from where it was placed. |
| FixedLeftBall.ResetBall | PongClone/Assets/Scripts/Ball.cs:23-28 | The ball is at rest on the centre with one more launch scheduled. |
| FixedLeftBall.FireLaunch | PongClone/Assets/Scripts/Ball.cs:27 | A scheduled launch consumes one pending launch and sends the ball left at `speed`. With none scheduled nothing happens. |
| FixedLeftBall.ResetThenRelaunch | PongClone/Assets/Scripts/Ball.cs:23-28 | A reset followed by its scheduled launch leaves the ball on the centre, heading left at `speed`. |
| FixedLeftBall.OnCollision | PongClone/Assets/Scripts/Ball.cs:31-35 | A bounce keeps the direction and sets the length to `speed`. A (near-)zero velocity becomes exactly zero. |
| FixedLeftBall.RestingBounce | PongClone/Assets/Scripts/Ball.cs:34 | A ball at rest stays at rest through a bounce. |
| FixedLeftBall.CollisionIdempotent | PongClone/Assets/Scripts/Ball.cs:34 | A second bounce right after the first changes nothing, for any speed above the normalisation epsilon. |

## Left out

- Rigidbody integration of the position between frames and collision detection are left out; they are the physics engine's. The contact normal, the collider's tag and the paddle's box extent are inputs of a collision.
- `Awake` of each script is left out; it only configures the rigidbody and looks up components.
- Floating-point rounding is not modelled: all arithmetic is over exact reals.
- The square root is a parameter constrained by `IsSqrt`. Sine and cosine appear only as a pair with `c^2 + s^2 = 1`, so `serveMaxAngleDeg` is not linked to the drawn angle and is not a field of the model's configuration.
- `exp` of the reaction filter is not modelled. The blend factor is a free parameter that `Lerp` clamps into [0, 1].
- Random draws are free parameters, not restricted to the script's ranges. The contracts hold for any draw. `ServeToUnfloored`, `LaunchIsShallow`, `BounceTiltBounded` and `ChooseTarget` state what the script's ranges add.
- `Invoke` timing: the 2.5D script's `serveDelay` field and the 2D script's literal 1-second relaunch delay are not modelled. Delays become queue order in the 2.5D model and a pending-launch count in the 2D one, so `serveDelay` is not a field of the model's configuration.
  - The 2.5D ball keeps a queue of the scheduled calls, fired in order by a `Fire` event.
  - The 2D ball keeps a count of pending launches.
- `UnityEvent` dispatch is left out: goal events are returned as a list of strings, and no listener runs. `GoalListenerResetHarmless` covers a listener that resets the ball.
- `GameObject.FindWithTag` and `Debug.LogWarning` are left out. The ball reference is given as present or absent.
- `Input.GetKey` and `Camera.main` are left out. Keys are booleans, and the orthographic size and sprite half-height are parameters.
- The score keeper, the goal wiring and the menus (`Assets/Scripts/Marcador.cs`, `Assets/Scripts/Goal.cs`, `Assets/Scripts/GameOverMenu.cs`, `Assets/Scripts/MainMenu.cs`) are not part of this model. They hold counters, UI and scene loading.
- BallEngine.PinZ: it does not promise that z equals `fixedZ` after every frame, only that z is within 0.0001 of it. The script rewrites z only when it has drifted further than that.
- BallEngine.FloorX: it does not promise abs(x) ≥ `minAbsXDir` after the floor. After renormalising, abs(x) is strictly below `minAbsXDir` whenever the floor fires (x'^2 = m^2 / (m^2 + 1 - x^2) < m^2). The model follows the code: it proves the sign, the strict growth of abs(x) and this undershoot.
- BallEngine.ServeRandom: it does not state the x-sign when cos ≤ 0 and the floor does not fire. That case cannot occur with the default 20°, but the angle itself is not modelled.
- PaddleRightAi.TicksKeepInLimits: the limits invariant holds across ticks but not across `SetVerticalLimits`. That call stores new limits without moving the paddle, so narrowed limits can leave it outside them (PaddleRight.cs:102-106). With no ball in view a tick returns early (PaddleRight.cs:51), so the paddle stays outside. `NarrowedLimitsStrand` shows a paddle at height 3, inside (-5, 5) but not (-1, 1), that stays outside.
- BallEngine.RunKeepsSpeedBounded: the invariant bounds `currentSpeed` to [0.75·startSpeed, maxSpeed] but bounds the velocity only from above. The script's aim of a constant speed is not a property of every state. A collision whose flattened result is short leaves the ball slower than the floor until the next frame rescales it (`GlancingBounce` and `SlowedThenRescaled`). A wall bounce whose flattened reflection is too short to normalise stops the ball. So does an other-collider bounce whose reflection is too short or points straight along z. `Update` then leaves the ball at rest.

=== FILE: ball.dfy ===
/**
 The ball of the 2.5D game (`Assets/Scripts/Ball.cs`): per-tick Z pinning and
 speed clamp, reset, the random and directed serves, collision response for
 walls, paddles and other colliders, and the goal triggers.

 The engine's delayed `Invoke` becomes a queue of pending invocations on the
 ball; every one of them uses the same `serveDelay`, so they fire in the order
 they were scheduled. Random draws, the cosine and sine of the serve angle and
 the square root arrive as parameters.
 */
module BallEngine {
  import opened Mathf
  import opened Vectors

  datatype Config = Config(
    startSpeed: real,
    speedIncreasePerHit: real,
    maxSpeed: real,
    minAbsXDir: real,
    hitInfluence: real,
    jitterY: real,
    fixedZ: real,
    lockZPosition: bool,
    spawnPosition: Vec3)

  /** The inspector defaults of the script. */
  const Defaults: Config := Config(8.0, 0.6, 18.0, 0.6, 1.6, 0.05, 0.0, true, Zero3)

  /** Drift of z from `fixedZ` that the tick tolerates before rewriting z. */
  const ZTolerance: real := 0.0001

  /** Squared speeds at or below this count as resting: the tick leaves them alone. */
  const RestingSqrSpeed: real := 0.0001

  /** Half-height assumed for a paddle without a box collider. */
  const DefaultHalfHeight: real := 0.5

  /** Floor of the half-height used as the offset denominator. */
  const MinHalfHeight: real := 0.001

  /** Half-width of the vertical draw of a directed serve. */
  const ServeSpread: real := 0.25

  /** A call scheduled with `Invoke(…, serveDelay)`. */
  datatype Invocation = InvokeServeRandom | InvokeServeToRight | InvokeServeToLeft

  datatype Ball = Ball(position: Vec3, velocity: Vec3, currentSpeed: real, pending: seq<Invocation>)

  /** The slowest speed the tick allows once the ball moves. */
  function MinSpeed(cfg: Config): (m: real)
    ensures 0.0 <= cfg.startSpeed ==> 0.0 <= m <= cfg.startSpeed
    ensures 0.0 < cfg.startSpeed ==> m < cfg.startSpeed
  {
    cfg.startSpeed * 0.75
  }

  // ---- Per-tick update ----

  /** Z pinning: z is rewritten to `fixedZ` only once it has drifted past the tolerance. */
  function PinZ(cfg: Config, p: Vec3): (r: Vec3)
    ensures r.x == p.x && r.y == p.y
    ensures r.z == p.z || r.z == cfg.fixedZ
    ensures cfg.lockZPosition ==> Abs(r.z - cfg.fixedZ) <= ZTolerance
    ensures cfg.lockZPosition && Abs(p.z - cfg.fixedZ) > ZTolerance ==> r.z == cfg.fixedZ
    ensures !cfg.lockZPosition ==> r == p
    ensures !(cfg.lockZPosition && Abs(p.z - cfg.fixedZ) > ZTolerance) ==> r == p
  {
    if cfg.lockZPosition && Abs(p.z - cfg.fixedZ) > ZTolerance then p.(z := cfg.fixedZ) else p
  }

  /** One `Update`: pin z, then give a moving ball the clamped speed along its current direction. */
  function Update(cfg: Config, sqrt: real -> real, b: Ball): (r: Ball)
    requires IsSqrt(sqrt)
    ensures r.position == PinZ(cfg, b.position)
    ensures r.pending == b.pending
    ensures SqrMagnitude(b.velocity) <= RestingSqrSpeed ==>
      r.velocity == b.velocity && r.currentSpeed == b.currentSpeed
    ensures SqrMagnitude(b.velocity) > RestingSqrSpeed ==>
      && r.currentSpeed == Clamp(b.currentSpeed, MinSpeed(cfg), cfg.maxSpeed)
      && SqrMagnitude(r.velocity) == Sq(r.currentSpeed)
      && Cross(r.velocity, b.velocity) == Zero3
      && (r.currentSpeed >= 0.0 ==> Aligned(r.velocity, b.velocity))
    ensures SqrMagnitude(b.velocity) > RestingSqrSpeed && MinSpeed(cfg) <= cfg.maxSpeed ==>
      MinSpeed(cfg) <= r.currentSpeed <= cfg.maxSpeed
  {
    var p := PinZ(cfg, b.position);
    if SqrMagnitude(b.velocity) > RestingSqrSpeed then
      var dir := Normalized(sqrt, b.velocity);
      var speed := Clamp(b.currentSpeed, MinSpeed(cfg), cfg.maxSpeed);
      SqrMagnitudeScale(dir, speed);
      ScaleKeepsAlignment(dir, b.velocity, speed);
      Ball(p, Scale(dir, speed), speed, b.pending)
    else
      b.(position := p)
  }

  // ---- Reset ----

  /** The ball at rest on the spawn point: what `ResetBall` leaves behind. */
  predicate AtSpawn(cfg: Config, b: Ball) {
    b.velocity == Zero3 && b.position == cfg.spawnPosition && b.currentSpeed == cfg.startSpeed
  }

  /** `ResetBall`: stop, go back to the spawn point, restore the start speed; scheduled serves stay scheduled. */
  function ResetBall(cfg: Config, b: Ball): (r: Ball)
    ensures AtSpawn(cfg, r)
    ensures r.pending == b.pending
  {
    Ball(cfg.spawnPosition, Zero3, cfg.startSpeed, b.pending)
  }

  /** Resetting twice is resetting once. */
  lemma ResetIdempotent(cfg: Config, b: Ball)
    ensures ResetBall(cfg, ResetBall(cfg, b)) == ResetBall(cfg, b)
  {
  }

  // ---- Serves ----

  /** The horizontal sign of a random serve from the engine's `Random.value` draw. */
  function XSign(value: real): (s: real)
    ensures s == 1.0 || s == -1.0
    ensures s == -1.0 <==> value < 0.5
  {
    if value < 0.5 then -1.0 else 1.0
  }

  /**
   The minimum-horizontal-direction floor applied to a unit direction: when
   |x| is below `minAbsX`, x becomes `xSign * minAbsX` and the vector is
   renormalised. Renormalising can leave |x| below `minAbsX` again, but never
   below where it started, and strictly above it unless the direction was
   already purely horizontal.
   */
  function FloorX(sqrt: real -> real, dir: Vec3, xSign: real, minAbsX: real): (r: Vec3)
    requires IsSqrt(sqrt)
    requires SqrMagnitude(dir) == 1.0
    requires xSign == 1.0 || xSign == -1.0
    ensures SqrMagnitude(r) == 1.0
    ensures dir.z == 0.0 ==> r.z == 0.0
    ensures dir.y == 0.0 ==> r.y == 0.0
    ensures Abs(dir.x) >= minAbsX ==> r == dir
    ensures Abs(dir.x) < minAbsX ==> xSign * r.x > 0.0 && Abs(r.x) < minAbsX
    ensures Abs(dir.x) < minAbsX ==> Aligned(r, dir.(x := xSign * minAbsX))
    ensures SameSide(r.y, dir.y)
    ensures Sq(r.x) >= Sq(dir.x)
    ensures Abs(dir.x) < minAbsX && Sq(dir.x) < 1.0 ==> Sq(r.x) > Sq(dir.x)
  {
    if Abs(dir.x) < minAbsX then
      FloorRaisesX(sqrt, dir, xSign, minAbsX);
      Normalized(sqrt, dir.(x := xSign * minAbsX))
    else
      dir
  }

  lemma FloorRaisesX(sqrt: real -> real, dir: Vec3, xSign: real, m: real)
    requires IsSqrt(sqrt)
    requires SqrMagnitude(dir) == 1.0
    requires xSign == 1.0 || xSign == -1.0
    requires Abs(dir.x) < m
    ensures var r := Normalized(sqrt, dir.(x := xSign * m));
      && SqrMagnitude(r) == 1.0
      && (dir.z == 0.0 ==> r.z == 0.0)
      && (dir.y == 0.0 ==> r.y == 0.0)
      && xSign * r.x > 0.0
      && Sq(r.x) >= Sq(dir.x)
      && (Sq(dir.x) < 1.0 ==> Sq(r.x) > Sq(dir.x))
      && Abs(r.x) < m
      && Aligned(r, dir.(x := xSign * m))
      && SameSide(r.y, dir.y)
  {
    var w := dir.(x := xSign * m);
    FlooredLength(dir, xSign, m);
    var k := 1.0 / Magnitude(sqrt, w);
    assert Normalized(sqrt, w) == Scale(w, k) && SameSide(Scale(w, k).y, dir.y) by {
      NormalizedIsScale(sqrt, w);
      ScaledSigns(dir.y, k);
    }
    assert Sq(k) * SqrMagnitude(w) == 1.0 by {
      SqrMagnitudeScale(w, k);
    }
    FlooredScaled(dir, xSign, m, k);
  }

  /** The floored direction scaled back to unit length. */
  lemma FlooredScaled(dir: Vec3, xSign: real, m: real, k: real)
    requires SqrMagnitude(dir) == 1.0
    requires xSign == 1.0 || xSign == -1.0
    requires Abs(dir.x) < m
    requires k > 0.0 && Sq(k) * SqrMagnitude(dir.(x := xSign * m)) == 1.0
    ensures var r := Scale(dir.(x := xSign * m), k);
      && SqrMagnitude(r) == 1.0
      && (dir.z == 0.0 ==> r.z == 0.0)
      && (dir.y == 0.0 ==> r.y == 0.0)
      && xSign * r.x > 0.0
      && Sq(r.x) >= Sq(dir.x)
      && (Sq(dir.x) < 1.0 ==> Sq(r.x) > Sq(dir.x))
      && Abs(r.x) < m
  {
    var w := dir.(x := xSign * m);
    SqrMagnitudeScale(w, k);
    FlooredX(w, xSign, m, k);
    FlooredGrowth(dir, xSign, m, k);
    FlooredShort(dir, xSign, m, k);
  }

  /** The square of the renormalised floored x against the square of the original x. */
  lemma FlooredGrowth(dir: Vec3, xSign: real, m: real, k: real)
    requires SqrMagnitude(dir) == 1.0
    requires xSign == 1.0 || xSign == -1.0
    requires Abs(dir.x) < m
    requires k > 0.0 && Sq(k) * SqrMagnitude(dir.(x := xSign * m)) == 1.0
    ensures var rx := Scale(dir.(x := xSign * m), k).x;
      && Sq(rx) >= Sq(dir.x)
      && (Sq(dir.x) < 1.0 ==> Sq(rx) > Sq(dir.x))
  {
    var w := dir.(x := xSign * m);
    FlooredLength(dir, xSign, m);
    FlooredX(w, xSign, m, k);
    FloorArith(Sq(dir.x), Sq(m), SqrMagnitude(w), Sq(k), Sq(Scale(w, k).x));
  }

  /** Renormalising pulls the floored x back below the floor. */
  lemma FlooredShort(dir: Vec3, xSign: real, m: real, k: real)
    requires SqrMagnitude(dir) == 1.0
    requires xSign == 1.0 || xSign == -1.0
    requires Abs(dir.x) < m
    requires k > 0.0 && Sq(k) * SqrMagnitude(dir.(x := xSign * m)) == 1.0
    ensures Abs(Scale(dir.(x := xSign * m), k).x) < m
  {
    var w := dir.(x := xSign * m);
    FlooredLength(dir, xSign, m);
    FlooredX(w, xSign, m, k);
    var rx := Scale(w, k).x;
    FloorArith(Sq(dir.x), Sq(m), SqrMagnitude(w), Sq(k), Sq(rx));
    SqBelow(rx, m);
  }

  /** The floored (not yet renormalised) direction is longer than the unit direction. */
  lemma FlooredLength(dir: Vec3, xSign: real, m: real)
    requires SqrMagnitude(dir) == 1.0
    requires xSign == 1.0 || xSign == -1.0
    requires Abs(dir.x) < m
    ensures var w := dir.(x := xSign * m);
      && SqrMagnitude(w) == Sq(m) + 1.0 - Sq(dir.x)
      && 0.0 <= Sq(dir.x) <= 1.0
      && Sq(dir.x) < Sq(m)
      && Normalizable(w)
  {
    var w := dir.(x := xSign * m);
    assert Sq(w.x) == (Sq(xSign)) * (Sq(m));
    assert Abs(dir.x) * Abs(dir.x) == Sq(dir.x);
    SqMonotone(Abs(dir.x), m);
  }

  lemma FlooredX(w: Vec3, xSign: real, m: real, k: real)
    requires xSign == 1.0 || xSign == -1.0
    requires w.x == xSign * m
    requires m > 0.0 && k > 0.0
    ensures Sq(Scale(w, k).x) == Sq(m) * Sq(k)
    ensures xSign * Scale(w, k).x > 0.0
  {
    var rx := Scale(w, k).x;
    assert rx == xSign * (m * k);
    SqMul(xSign, m * k);
    SqMul(m, k);
    assert xSign * rx == m * k;
    MulPos(m, k);
  }

  /**
   With `s = m2 + 1 - x2` and `k2 * s = 1`: `m2 * k2` (the floored x squared)
   is at least `x2`, strictly when `x2 < 1`.
   */
  lemma FloorArith(x2: real, m2: real, s: real, k2: real, r2: real)
    requires 0.0 <= x2 <= 1.0 && x2 < m2
    requires s == m2 + 1.0 - x2
    requires k2 >= 0.0 && k2 * s == 1.0
    requires r2 == m2 * k2
    ensures r2 >= x2
    ensures x2 < 1.0 ==> r2 > x2
    ensures r2 < m2
  {
    if k2 >= 1.0 {
      MulNonneg(k2 - 1.0, s);
      assert false;
    }
    MulPos(m2, 1.0 - k2);
    var a := m2 - x2;
    var c := 1.0 - x2;
    assert x2 == x2 * (k2 * s);
    assert m2 * k2 - x2 == k2 * (a * c);
    MulNonneg(a, c);
    MulNonneg(k2, a * c);
    if x2 < 1.0 {
      MulPos(a, c);
      assert k2 != 0.0;
      MulPos(k2, a * c);
    }
  }

  /** Random serve direction: a random horizontal sign and the (cos, sin) of a random angle, then the floor. */
  function ServeRandomDir(cfg: Config, sqrt: real -> real, value: real, cosA: real, sinA: real): (d: Vec3)
    requires IsSqrt(sqrt)
    requires Sq(cosA) + Sq(sinA) == 1.0
    ensures SqrMagnitude(d) == 1.0 && d.z == 0.0
    ensures Abs(cosA) >= cfg.minAbsXDir ==> d == Vec3(XSign(value) * cosA, sinA, 0.0)
    ensures cosA > 0.0 || Abs(cosA) < cfg.minAbsXDir ==> XSign(value) * d.x > 0.0
    ensures Sq(d.x) >= Sq(cosA)
    ensures Abs(cosA) < cfg.minAbsXDir && sinA != 0.0 ==> Sq(d.x) > Sq(cosA)
    ensures Abs(cosA) < cfg.minAbsXDir ==> Aligned(d, Vec3(XSign(value) * cfg.minAbsXDir, sinA, 0.0))
    ensures SameSide(d.y, sinA)
  {
    var s := XSign(value);
    var raw := Vec3(s * cosA, sinA, 0.0);
    ServeRawFacts(s, cosA, sinA);
    FloorX(sqrt, raw, s, cfg.minAbsXDir)
  }

  lemma ServeRawFacts(s: real, cosA: real, sinA: real)
    requires s == 1.0 || s == -1.0
    requires Sq(cosA) + Sq(sinA) == 1.0
    ensures var raw := Vec3(s * cosA, sinA, 0.0);
      && SqrMagnitude(raw) == 1.0
      && Sq(raw.x) == Sq(cosA)
      && Abs(raw.x) == Abs(cosA)
      && s * raw.x == cosA
      && (sinA != 0.0 ==> Sq(raw.x) < 1.0)
  {
    var raw := Vec3(s * cosA, sinA, 0.0);
    assert Sq(raw.x) == (Sq(s)) * (Sq(cosA));
    assert s * raw.x == (Sq(s)) * cosA;
    if sinA != 0.0 {
      SqPos(sinA);
    }
  }

  /** `ServeRandom`: launch at `currentSpeed` along a random serve direction. */
  function ServeRandom(cfg: Config, sqrt: real -> real, b: Ball, value: real, cosA: real, sinA: real): (r: Ball)
    requires IsSqrt(sqrt)
    requires Sq(cosA) + Sq(sinA) == 1.0
    ensures r.position == b.position && r.currentSpeed == b.currentSpeed && r.pending == b.pending
    ensures r.velocity.z == 0.0
    ensures SqrMagnitude(r.velocity) == Sq(b.currentSpeed)
    ensures b.currentSpeed > 0.0 && (cosA > 0.0 || Abs(cosA) < cfg.minAbsXDir) ==>
      XSign(value) * r.velocity.x > 0.0
    ensures Abs(cosA) >= cfg.minAbsXDir ==>
      r.velocity == Scale(Vec3(XSign(value) * cosA, sinA, 0.0), b.currentSpeed)
    ensures b.currentSpeed > 0.0 ==> SameSide(r.velocity.y, sinA)
  {
    var d := ServeRandomDir(cfg, sqrt, value, cosA, sinA);
    SqrMagnitudeScale(d, b.currentSpeed);
    SignedScale(XSign(value), d.x, b.currentSpeed);
    assert b.currentSpeed > 0.0 ==> SameSide(d.y * b.currentSpeed, d.y) by {
      if b.currentSpeed > 0.0 {
        ScaledSigns(d.y, b.currentSpeed);
      }
    }
    b.(velocity := Scale(d, b.currentSpeed))
  }

  /** A positive speed keeps the sign of a signed component. */
  lemma SignedScale(s: real, x: real, k: real)
    ensures s * x > 0.0 && k > 0.0 ==> s * (x * k) > 0.0
  {
    if s * x > 0.0 && k > 0.0 {
      MulPos(s * x, k);
      assert s * (x * k) == (s * x) * k;
    }
  }

  /**
   `ServeTo`: a unit direction toward the chosen side with a small vertical
   draw, the floor on x (without renormalising), then normalised and scaled
   to `currentSpeed`.
   */
  function ServeTo(cfg: Config, sqrt: real -> real, b: Ball, toRight: bool, offset: real): (r: Ball)
    requires IsSqrt(sqrt)
    ensures r.position == b.position && r.currentSpeed == b.currentSpeed && r.pending == b.pending
    ensures r.velocity.z == 0.0
    ensures SqrMagnitude(r.velocity) == Sq(b.currentSpeed)
    ensures b.currentSpeed > 0.0 ==> (toRight ==> r.velocity.x > 0.0) && (!toRight ==> r.velocity.x < 0.0)
  {
    var sx := if toRight then 1.0 else -1.0;
    var d := ServeToDir(sqrt, sx, offset, cfg.minAbsXDir);
    SqrMagnitudeScale(d, b.currentSpeed);
    SignedScale(sx, d.x, b.currentSpeed);
    b.(velocity := Scale(d, b.currentSpeed))
  }

  function ServeToDir(sqrt: real -> real, sx: real, offset: real, minAbsX: real): (d: Vec3)
    requires IsSqrt(sqrt)
    requires sx == 1.0 || sx == -1.0
    ensures SqrMagnitude(d) == 1.0 && d.z == 0.0
    ensures sx * d.x > 0.0
  {
    var raw := Vec3(sx, offset, 0.0);
    assert SqrMagnitude(raw) >= 1.0;
    var d0 := Normalized(sqrt, raw);
    NormalizedIsScale(sqrt, raw);
    var k := 1.0 / Magnitude(sqrt, raw);
    assert d0.x == sx * k;
    assert sx * d0.x == (Sq(sx)) * k;
    if Abs(d0.x) < minAbsX then
      var d1 := d0.(x := sx * minAbsX);
      FlooredLength(d0, sx, minAbsX);
      NormalizedIsScale(sqrt, d1);
      var k1 := 1.0 / Magnitude(sqrt, d1);
      FlooredX(d1, sx, minAbsX, k1);
      Normalized(sqrt, d1)
    else
      NormalizedUnit(sqrt, d0);
      Normalized(sqrt, d0)
  }

  /**
   With the script's draw range and a floor of at most 0.9, the directed
   serve never needs the floor: it is plain `(±1, offset, 0).normalized`.
   */
  lemma ServeToUnfloored(sqrt: real -> real, sx: real, offset: real, minAbsX: real)
    requires IsSqrt(sqrt)
    requires sx == 1.0 || sx == -1.0
    requires Abs(offset) <= ServeSpread
    requires minAbsX <= 0.9
    ensures ServeToDir(sqrt, sx, offset, minAbsX) == Normalized(sqrt, Vec3(sx, offset, 0.0))
  {
    var raw := Vec3(sx, offset, 0.0);
    AxisNormalizable(raw);
    NormalizedIsScale(sqrt, raw);
    var m := Magnitude(sqrt, raw);
    ShallowServeArith(sx, offset, m);
    NormalizedUnit(sqrt, Normalized(sqrt, raw));
  }

  /** The arithmetic behind `ServeToUnfloored`: |±1 / |(±1, offset, 0)|| exceeds 0.9. */
  lemma ShallowServeArith(sx: real, offset: real, m: real)
    requires sx == 1.0 || sx == -1.0
    requires Abs(offset) <= ServeSpread
    requires m > 0.0 && Sq(m) == SqrMagnitude(Vec3(sx, offset, 0.0))
    ensures Abs(sx * (1.0 / m)) > 0.9
  {
    SqAbs(offset);
    if Abs(offset) < ServeSpread {
      SqMonotone(Abs(offset), ServeSpread);
    }
    assert Sq(m) <= 1.0625;
    assert Sq(10.0 / 9.0) > 1.0625;
    SqBelow(m, 10.0 / 9.0);
    assert 0.9 * m < 1.0;
    assert (1.0 / m) * m == 1.0;
  }

  // ---- Collisions ----

  /** The box collider of a paddle, when it has one. */
  datatype PaddleBox = NoBox | Box(extentY: real)

  /** The collider category, decided by the tag of the object hit. */
  datatype Collider = Wall | Paddle(paddleY: real, box: PaddleBox) | OtherCollider

  /** A collision event: the first contact's normal and what was hit. */
  datatype Contact = Contact(normal: Vec3, collider: Collider)

  /** The paddle's half-height: its box's vertical extent, or 0.5 without a box. */
  function HalfHeight(box: PaddleBox): (h: real)
    ensures box.Box? ==> h == box.extentY
    ensures box == NoBox ==> h == DefaultHalfHeight
  {
    match box
    case NoBox => DefaultHalfHeight
    case Box(e) => e
  }

  /**
   Where the ball struck the paddle, relative to its centre, in half-heights:
   in [-1, 1], on the same side of the centre as the ball, zero exactly at
   the centre, and exact (unclamped) within the paddle's extent.
   */
  function PaddleOffset(ballY: real, paddleY: real, box: PaddleBox): (o: real)
    ensures -1.0 <= o <= 1.0
    ensures o * (ballY - paddleY) >= 0.0
    ensures o == 0.0 <==> ballY == paddleY
    ensures Abs(ballY - paddleY) <= Max(HalfHeight(box), MinHalfHeight) ==>
      o * Max(HalfHeight(box), MinHalfHeight) == ballY - paddleY
    ensures Abs(ballY - paddleY) >= Max(HalfHeight(box), MinHalfHeight) ==> o == Sign(ballY - paddleY)
  {
    var h := Max(HalfHeight(box), MinHalfHeight);
    var dy := ballY - paddleY;
    DivFacts(dy, h);
    var o := Clamp(dy / h, -1.0, 1.0);
    SameSign(o, dy);
    o
  }

  lemma DivFacts(x: real, d: real)
    requires d > 0.0
    ensures (x / d) * d == x
    ensures x > 0.0 ==> x / d > 0.0
    ensures x < 0.0 ==> x / d < 0.0
    ensures x == 0.0 ==> x / d == 0.0
    ensures Abs(x) <= d ==> -1.0 <= x / d <= 1.0
    ensures x >= d ==> x / d >= 1.0
    ensures x <= -d ==> x / d <= -1.0
  {
    var q := x / d;
    assert q * d == x;
    assert (1.0 - q) * d == d - q * d && (q - 1.0) * d == q * d - d;
    assert (q + 1.0) * d == q * d + d && (-1.0 - q) * d == -(q * d) - d;
    if x > 0.0 && q <= 0.0 {
      MulNonneg(-q, d);
      assert false;
    }
    if x < 0.0 && q >= 0.0 {
      MulNonneg(q, d);
      assert false;
    }
    if x >= d && q < 1.0 {
      MulPos(1.0 - q, d);
      assert false;
    }
    if x <= -d && q > -1.0 {
      MulPos(q + 1.0, d);
      assert false;
    }
    if Abs(x) <= d {
      if q > 1.0 {
        MulPos(q - 1.0, d);
        assert false;
      }
      if q < -1.0 {
        MulPos(-1.0 - q, d);
        assert false;
      }
    }
  }

  lemma SameSign(o: real, x: real)
    requires (o > 0.0 && x > 0.0) || (o < 0.0 && x < 0.0) || o == 0.0 || x == 0.0
    ensures o * x >= 0.0
  {
    if o < 0.0 && x < 0.0 {
      MulPos(-o, -x);
    } else if o > 0.0 && x > 0.0 {
      MulPos(o, x);
    }
  }

  /** The vertical tilt of a paddle bounce: the offset weighted by `hitInfluence`, plus the jitter. */
  function Tilt(offsetY: real, hitInfluence: real, jitter: real): (t: real)
    ensures offsetY == 0.0 ==> t == jitter
    ensures hitInfluence == 0.0 ==> t == jitter
  {
    offsetY * hitInfluence + jitter
  }

  /** The paddle's raw bounce direction: back across the court, tilted by the offset plus jitter. */
  function BounceRaw(cfg: Config, inVel: Vec3, offsetY: real, jitter: real): (r: Vec3)
    ensures r.z == 0.0
    ensures r.x == -1.0 <==> inVel.x > 0.0
    ensures r.x == 1.0 <==> inVel.x <= 0.0
    ensures offsetY == 0.0 ==> r.y == jitter
  {
    Vec3(Sign(-inVel.x), Tilt(offsetY, cfg.hitInfluence, jitter), 0.0)
  }

  /**
   * With the jitter drawn from `[-jitterY, jitterY]` and the offset the clamped one, the raw bounce
   * tilts by at most `hitInfluence + jitterY`, and by at most `jitterY` away from the offset's own tilt.
   */
  lemma BounceTiltBounded(cfg: Config, inVel: Vec3, ballY: real, paddleY: real, box: PaddleBox, jitter: real)
    requires cfg.hitInfluence >= 0.0
    requires Abs(jitter) <= cfg.jitterY
    ensures Abs(BounceRaw(cfg, inVel, PaddleOffset(ballY, paddleY, box), jitter).y) <= cfg.hitInfluence + cfg.jitterY
    ensures Abs(BounceRaw(cfg, inVel, PaddleOffset(ballY, paddleY, box), jitter).y
                - PaddleOffset(ballY, paddleY, box) * cfg.hitInfluence) <= cfg.jitterY
  {
    TiltBounded(PaddleOffset(ballY, paddleY, box), cfg.hitInfluence, jitter, cfg.jitterY);
  }

  lemma TiltBounded(offsetY: real, hitInfluence: real, jitter: real, jitterY: real)
    requires -1.0 <= offsetY <= 1.0 && hitInfluence >= 0.0
    requires Abs(jitter) <= jitterY
    ensures Abs(Tilt(offsetY, hitInfluence, jitter)) <= hitInfluence + jitterY
    ensures Abs(Tilt(offsetY, hitInfluence, jitter) - offsetY * hitInfluence) <= jitterY
  {
    MulNonneg(1.0 - offsetY, hitInfluence);
    MulNonneg(1.0 + offsetY, hitInfluence);
  }

  /** The raw bounce direction normalised, before the floor on x. */
  function BounceUnfloored(cfg: Config, sqrt: real -> real, inVel: Vec3, offsetY: real, jitter: real): (n: Vec3)
    requires IsSqrt(sqrt)
    ensures SqrMagnitude(n) == 1.0 && n.z == 0.0
    ensures Aligned(n, BounceRaw(cfg, inVel, offsetY, jitter))
    ensures Sign(-inVel.x) * n.x > 0.0
    ensures (n.y == 0.0) == (Tilt(offsetY, cfg.hitInfluence, jitter) == 0.0)
    ensures SameSide(n.y, Tilt(offsetY, cfg.hitInfluence, jitter))
  {
    var raw := BounceRaw(cfg, inVel, offsetY, jitter);
    AxisNormalizable(raw);
    var n := Normalized(sqrt, raw);
    NormalizedIsScale(sqrt, raw);
    AxisScaled(raw, n, 1.0 / Magnitude(sqrt, raw));
    n
  }

  /** A positive multiple of a vector with a unit first component keeps that component's sign and the zeroness of the second. */
  lemma AxisScaled(raw: Vec3, n: Vec3, k: real)
    requires raw.x == 1.0 || raw.x == -1.0
    requires k > 0.0 && n == Scale(raw, k)
    ensures raw.x * n.x > 0.0
    ensures (n.y == 0.0) == (raw.y == 0.0)
    ensures SameSide(n.y, raw.y)
  {
    ScaledAxisSign(raw.x, k);
    ScaledSigns(raw.y, k);
  }

  /** A positive factor keeps the sign of a unit component. */
  lemma ScaledAxisSign(s: real, k: real)
    requires s == 1.0 || s == -1.0
    requires k > 0.0
    ensures s * (s * k) > 0.0
  {
    assert s * (s * k) == k;
  }

  /** The paddle bounce direction: the unfloored direction with the floor on x applied. */
  function PaddleBounceDir(cfg: Config, sqrt: real -> real, inVel: Vec3, offsetY: real, jitter: real): (d: Vec3)
    requires IsSqrt(sqrt)
    ensures SqrMagnitude(d) == 1.0 && d.z == 0.0
    ensures Sign(-inVel.x) * d.x > 0.0
    ensures Tilt(offsetY, cfg.hitInfluence, jitter) == 0.0 ==> d == Vec3(Sign(-inVel.x), 0.0, 0.0)
    ensures var n := BounceUnfloored(cfg, sqrt, inVel, offsetY, jitter);
      && (Abs(n.x) >= cfg.minAbsXDir ==> d == n)
      && Sq(d.x) >= Sq(n.x)
      && (Abs(n.x) < cfg.minAbsXDir && Tilt(offsetY, cfg.hitInfluence, jitter) != 0.0 ==> Sq(d.x) > Sq(n.x))
    ensures SameSide(d.y, Tilt(offsetY, cfg.hitInfluence, jitter))
  {
    var n := BounceUnfloored(cfg, sqrt, inVel, offsetY, jitter);
    var s := Sign(-inVel.x);
    assert Sign(n.x) == s;
    assert n.y != 0.0 ==> Sq(n.x) < 1.0 by {
      if n.y != 0.0 {
        UnitWithRise(n);
      }
    }
    var d := FloorX(sqrt, n, s, cfg.minAbsXDir);
    assert SameSide(d.y, n.y);
    assert Tilt(offsetY, cfg.hitInfluence, jitter) == 0.0 ==> d == Vec3(s, 0.0, 0.0) by {
      if Tilt(offsetY, cfg.hitInfluence, jitter) == 0.0 {
        UnitOnAxis(d, s);
      }
    }
    d
  }

  /**
   When the floor applies, the paddle bounce direction is the unit vector
   along the unfloored direction with its x replaced by the floor value on
   the outgoing side.
   */
  lemma PaddleBounceFloored(cfg: Config, sqrt: real -> real, inVel: Vec3, offsetY: real, jitter: real)
    requires IsSqrt(sqrt)
    ensures var n := BounceUnfloored(cfg, sqrt, inVel, offsetY, jitter);
      Abs(n.x) < cfg.minAbsXDir ==>
        Aligned(PaddleBounceDir(cfg, sqrt, inVel, offsetY, jitter), n.(x := Sign(-inVel.x) * cfg.minAbsXDir))
  {
    var n := BounceUnfloored(cfg, sqrt, inVel, offsetY, jitter);
    FloorAligned(sqrt, n, Sign(-inVel.x), cfg.minAbsXDir);
  }

  /** The floor's alignment, for any unit direction and outgoing side. */
  lemma FloorAligned(sqrt: real -> real, n: Vec3, s: real, m: real)
    requires IsSqrt(sqrt) && SqrMagnitude(n) == 1.0 && (s == 1.0 || s == -1.0)
    ensures Abs(n.x) < m ==> Aligned(FloorX(sqrt, n, s, m), n.(x := s * m))
  {
  }

  lemma UnitWithRise(n: Vec3)
    requires SqrMagnitude(n) == 1.0 && n.y != 0.0
    ensures Sq(n.x) < 1.0
  {
    SqPos(n.y);
    assert Sq(n.x) == 1.0 - Sq(n.y) - Sq(n.z);
  }

  lemma UnitOnAxis(d: Vec3, s: real)
    requires SqrMagnitude(d) == 1.0 && d.y == 0.0 && d.z == 0.0
    requires s == 1.0 || s == -1.0
    requires s * d.x > 0.0
    ensures d == Vec3(s, 0.0, 0.0)
  {
    assert Sq(d.x) == 1.0;
    if s == 1.0 {
      UniqueRoot(d.x, 1.0);
    } else {
      assert Sq(-d.x) == Sq(d.x);
      UniqueRoot(-d.x, 1.0);
    }
  }

  /**
   A wall: reflect the velocity about the contact normal, drop z, and move
   at `currentSpeed` along the result (or stop, when the result is too short
   to normalise).
   */
  function WallBounce(sqrt: real -> real, b: Ball, normal: Vec3): (r: Ball)
    requires IsSqrt(sqrt)
    ensures r.position == b.position && r.pending == b.pending && r.currentSpeed == b.currentSpeed
    ensures r.velocity.z == 0.0
    ensures var f := Flatten(Reflect(b.velocity, normal));
      && (Normalizable(f) ==>
            && SqrMagnitude(r.velocity) == Sq(b.currentSpeed)
            && Cross(r.velocity, f) == Zero3
            && (b.currentSpeed >= 0.0 ==> Aligned(r.velocity, f)))
      && (!Normalizable(f) ==> r.velocity == Zero3)
  {
    var f := Flatten(Reflect(b.velocity, normal));
    var n := Normalized(sqrt, f);
    if Normalizable(f) then
      ScaleUnitAlong(n, f, b.currentSpeed);
      b.(velocity := Scale(n, b.currentSpeed))
    else
      b.(velocity := Scale(n, b.currentSpeed))
  }

  /**
   A paddle: bounce back across the court along the floored bounce
   direction, one speed step faster (capped at `maxSpeed`), z dropped.
   */
  function PaddleHit(cfg: Config, sqrt: real -> real, b: Ball, paddleY: real, box: PaddleBox, jitter: real): (r: Ball)
    requires IsSqrt(sqrt)
    ensures r.position == b.position && r.pending == b.pending
    ensures r.velocity.z == 0.0
    ensures r.currentSpeed == Min(b.currentSpeed + cfg.speedIncreasePerHit, cfg.maxSpeed)
    ensures SqrMagnitude(r.velocity) == Sq(r.currentSpeed)
    ensures r.currentSpeed <= cfg.maxSpeed
    ensures cfg.speedIncreasePerHit >= 0.0 && b.currentSpeed <= cfg.maxSpeed ==> b.currentSpeed <= r.currentSpeed
    ensures r.velocity ==
      Scale(PaddleBounceDir(cfg, sqrt, b.velocity, PaddleOffset(b.position.y, paddleY, box), jitter), r.currentSpeed)
    ensures r.currentSpeed > 0.0 ==> Sign(-b.velocity.x) * r.velocity.x > 0.0
    ensures r.currentSpeed > 0.0 ==>
      SameSide(r.velocity.y, Tilt(PaddleOffset(b.position.y, paddleY, box), cfg.hitInfluence, jitter))
  {
    var o := PaddleOffset(b.position.y, paddleY, box);
    var d := PaddleBounceDir(cfg, sqrt, b.velocity, o, jitter);
    var speed := Min(b.currentSpeed + cfg.speedIncreasePerHit, cfg.maxSpeed);
    LaunchAlong(d, Sign(-b.velocity.x), speed);
    b.(velocity := Flatten(Scale(d, speed)), currentSpeed := speed)
  }

  /** A flat unit direction scaled by a speed: that speed, still flat, and on the direction's side. */
  lemma LaunchAlong(d: Vec3, side: real, speed: real)
    requires SqrMagnitude(d) == 1.0 && d.z == 0.0
    requires side * d.x > 0.0
    ensures var v := Flatten(Scale(d, speed));
      && v == Scale(d, speed)
      && SqrMagnitude(v) == Sq(speed)
      && (speed > 0.0 ==> side * v.x > 0.0)
      && (speed > 0.0 ==> SameSide(v.y, d.y))
  {
    SqrMagnitudeScale(d, speed);
    SignedScale(side, d.x, speed);
    if speed > 0.0 {
      ScaledSigns(d.y, speed);
    }
  }

  /**
   Any other collider: reflect about the contact normal, normalise, scale by
   `currentSpeed`, then drop z. Dropping z after scaling can only shorten the
   velocity.
   */
  function OtherBounce(sqrt: real -> real, b: Ball, normal: Vec3): (r: Ball)
    requires IsSqrt(sqrt)
    ensures r.position == b.position && r.pending == b.pending && r.currentSpeed == b.currentSpeed
    ensures r.velocity.z == 0.0
    ensures SqrMagnitude(r.velocity) <= Sq(b.currentSpeed)
    ensures var refl := Reflect(b.velocity, normal);
      && (Normalizable(refl) && refl.z == 0.0 ==> SqrMagnitude(r.velocity) == Sq(b.currentSpeed))
      && (!Normalizable(refl) ==> r.velocity == Zero3)
      && (Normalizable(refl) && b.currentSpeed >= 0.0 ==> Aligned(r.velocity, Flatten(refl)))
  {
    var refl := Reflect(b.velocity, normal);
    var n := Normalized(sqrt, refl);
    var w := Scale(n, b.currentSpeed);
    SqrMagnitudeScale(n, b.currentSpeed);
    FlattenShortens(w);
    assert Normalizable(refl) && b.currentSpeed >= 0.0 ==> Aligned(Flatten(w), Flatten(refl)) by {
      if Normalizable(refl) && b.currentSpeed >= 0.0 {
        NormalizedIsScale(sqrt, refl);
        FlattenScaledAligned(refl, 1.0 / Magnitude(sqrt, refl), b.currentSpeed);
      }
    }
    b.(velocity := Flatten(w))
  }

  /** `OnCollisionEnter`: dispatch on the collider category. */
  function OnCollision(cfg: Config, sqrt: real -> real, b: Ball, c: Contact, jitter: real): (r: Ball)
    requires IsSqrt(sqrt)
    ensures r.position == b.position && r.pending == b.pending
    ensures r.velocity.z == 0.0
    ensures !c.collider.Paddle? ==> r.currentSpeed == b.currentSpeed
    ensures c.collider.Paddle? ==> r.currentSpeed == Min(b.currentSpeed + cfg.speedIncreasePerHit, cfg.maxSpeed)
  {
    match c.collider
    case Wall => WallBounce(sqrt, b, c.normal)
    case Paddle(paddleY, box) => PaddleHit(cfg, sqrt, b, paddleY, box, jitter)
    case OtherCollider => OtherBounce(sqrt, b, c.normal)
  }

  /** A dead-centre hit without jitter sends the ball straight back, horizontally. */
  lemma DeadCentreHit(cfg: Config, sqrt: real -> real, b: Ball, paddleY: real, box: PaddleBox)
    requires IsSqrt(sqrt)
    requires b.position.y == paddleY
    requires b.velocity.x != 0.0
    ensures var r := OnCollision(cfg, sqrt, b, Contact(Zero3, Paddle(paddleY, box)), 0.0);
      && r.velocity.y == 0.0
      && (r.currentSpeed > 0.0 ==> r.velocity.x * b.velocity.x < 0.0)
  {
    var o := PaddleOffset(b.position.y, paddleY, box);
    assert o == 0.0;
    assert Tilt(o, cfg.hitInfluence, 0.0) == 0.0;
    var r := OnCollision(cfg, sqrt, b, Contact(Zero3, Paddle(paddleY, box)), 0.0);
    assert r == PaddleHit(cfg, sqrt, b, paddleY, box, 0.0);
    var d := PaddleBounceDir(cfg, sqrt, b.velocity, o, 0.0);
    assert r.velocity == Flatten(Scale(d, r.currentSpeed));
    if r.currentSpeed > 0.0 {
      assert Sign(-b.velocity.x) * r.velocity.x > 0.0;
      Reversed(b.velocity.x, r.velocity.x);
    }
  }

  /** A horizontal component on the side opposite to the incoming one reverses it. */
  lemma Reversed(vx: real, rx: real)
    requires vx != 0.0
    requires Sign(-vx) * rx > 0.0
    ensures rx * vx < 0.0
  {
    if vx > 0.0 {
      MulPos(-rx, vx);
    } else {
      MulPos(rx, -vx);
    }
  }

  // ---- Goals and scheduled serves ----

  /** The trigger zone the ball entered, by tag. */
  datatype Zone = GoalLeft | GoalRight | OtherZone

  /** The ball after a trigger, with the goal events emitted to the listeners. */
  datatype Outcome = Outcome(ball: Ball, goals: seq<string>)

  /** `OnTriggerEnter`: a goal zone announces its side, resets the ball and schedules a serve toward that side. */
  function OnTrigger(cfg: Config, b: Ball, zone: Zone): (o: Outcome)
    ensures zone == OtherZone ==> o.ball == b && o.goals == []
    ensures zone == GoalLeft ==>
      o.goals == ["Left"] && AtSpawn(cfg, o.ball) && o.ball.pending == b.pending + [InvokeServeToRight]
    ensures zone == GoalRight ==>
      o.goals == ["Right"] && AtSpawn(cfg, o.ball) && o.ball.pending == b.pending + [InvokeServeToLeft]
  {
    match zone
    case GoalLeft =>
      var r := ResetBall(cfg, b);
      Outcome(r.(pending := r.pending + [InvokeServeToRight]), ["Left"])
    case GoalRight =>
      var r := ResetBall(cfg, b);
      Outcome(r.(pending := r.pending + [InvokeServeToLeft]), ["Right"])
    case OtherZone =>
      Outcome(b, [])
  }

  /**
   The listener of the goal event resets the ball itself before the trigger
   does; because reset is idempotent, that call changes nothing.
   */
  lemma GoalListenerResetHarmless(cfg: Config, b: Ball, zone: Zone)
    requires zone != OtherZone
    ensures OnTrigger(cfg, ResetBall(cfg, b), zone) == OnTrigger(cfg, b, zone)
  {
    ResetIdempotent(cfg, b);
  }

  /** `Start`: reset, then schedule a random serve. */
  function Start(cfg: Config, b: Ball): (r: Ball)
    ensures AtSpawn(cfg, r)
    ensures r.pending == b.pending + [InvokeServeRandom]
  {
    var r := ResetBall(cfg, b);
    r.(pending := r.pending + [InvokeServeRandom])
  }

  /** The random draws a scheduled serve may consume. */
  datatype ServeDraw = ServeDraw(value: real, cosA: real, sinA: real, offset: real)

  predicate ValidDraw(d: ServeDraw) {
    Sq(d.cosA) + Sq(d.sinA) == 1.0
  }

  /** Runs the oldest scheduled invocation, if any. */
  function RunPending(cfg: Config, sqrt: real -> real, b: Ball, d: ServeDraw): (r: Ball)
    requires IsSqrt(sqrt)
    requires ValidDraw(d)
    ensures |b.pending| == 0 ==> r == b
    ensures |b.pending| > 0 ==>
      && r.pending == b.pending[1..]
      && r.position == b.position
      && r.currentSpeed == b.currentSpeed
      && r.velocity.z == 0.0
      && SqrMagnitude(r.velocity) == Sq(b.currentSpeed)
    ensures |b.pending| > 0 && b.pending[0] == InvokeServeToRight && b.currentSpeed > 0.0 ==> r.velocity.x > 0.0
    ensures |b.pending| > 0 && b.pending[0] == InvokeServeToLeft && b.currentSpeed > 0.0 ==> r.velocity.x < 0.0
  {
    if |b.pending| == 0 then b
    else
      var rest := b.(pending := b.pending[1..]);
      match b.pending[0]
      case InvokeServeRandom => ServeRandom(cfg, sqrt, rest, d.value, d.cosA, d.sinA)
      case InvokeServeToRight => ServeTo(cfg, sqrt, rest, true, d.offset)
      case InvokeServeToLeft => ServeTo(cfg, sqrt, rest, false, d.offset)
  }

  /** A goal in the left zone: "Left" is announced, and the scheduled serve then heads right at the start speed. */
  lemma GoalLeftServesRight(cfg: Config, sqrt: real -> real, b: Ball, d: ServeDraw)
    requires IsSqrt(sqrt)
    requires ValidDraw(d)
    requires b.pending == []
    requires cfg.startSpeed > 0.0
    ensures var o := OnTrigger(cfg, b, GoalLeft);
      var r := RunPending(cfg, sqrt, o.ball, d);
      && o.goals == ["Left"]
      && r.position == cfg.spawnPosition
      && r.pending == []
      && r.velocity.x > 0.0
      && SqrMagnitude(r.velocity) == Sq(cfg.startSpeed)
  {
    var o := OnTrigger(cfg, b, GoalLeft);
    assert o.ball.pending == [InvokeServeToRight];
  }

  /** A goal in the right zone: "Right" is announced, and the scheduled serve then heads left at the start speed. */
  lemma GoalRightServesLeft(cfg: Config, sqrt: real -> real, b: Ball, d: ServeDraw)
    requires IsSqrt(sqrt)
    requires ValidDraw(d)
    requires b.pending == []
    requires cfg.startSpeed > 0.0
    ensures var o := OnTrigger(cfg, b, GoalRight);
      var r := RunPending(cfg, sqrt, o.ball, d);
      && o.goals == ["Right"]
      && r.position == cfg.spawnPosition
      && r.pending == []
      && r.velocity.x < 0.0
      && SqrMagnitude(r.velocity) == Sq(cfg.startSpeed)
  {
    var o := OnTrigger(cfg, b, GoalRight);
    assert o.ball.pending == [InvokeServeToLeft];
  }

  // ---- The whole machine ----

  /** Everything that can happen to the ball. */
  datatype Event = Tick | Collide(contact: Contact, jitter: real) | Enter(zone: Zone) | Fire(draw: ServeDraw)

  predicate ValidEvent(e: Event) {
    e.Fire? ==> ValidDraw(e.draw)
  }

  /** One event, handled as Unity would dispatch it; every handler keeps the speed invariant. */
  function Step(cfg: Config, sqrt: real -> real, b: Ball, e: Event): (r: Ball)
    requires IsSqrt(sqrt)
    requires ValidEvent(e)
    ensures ValidConfig(cfg) && SpeedBounded(cfg, b) ==> SpeedBounded(cfg, r)
  {
    match e
    case Tick => Update(cfg, sqrt, b)
    case Collide(c, j) =>
      assert ValidConfig(cfg) && SpeedBounded(cfg, b) ==> SpeedBounded(cfg, OnCollision(cfg, sqrt, b, c, j)) by {
        if ValidConfig(cfg) && SpeedBounded(cfg, b) {
          CollisionKeepsSpeedBounded(cfg, sqrt, b, c, j);
        }
      }
      OnCollision(cfg, sqrt, b, c, j)
    case Enter(z) =>
      assert ValidConfig(cfg) && SpeedBounded(cfg, b) ==> SpeedBounded(cfg, OnTrigger(cfg, b, z).ball) by {
        if ValidConfig(cfg) && SpeedBounded(cfg, b) && z != OtherZone {
          RestingIsSpeedBounded(cfg, OnTrigger(cfg, b, z).ball);
        }
      }
      OnTrigger(cfg, b, z).ball
    case Fire(d) => RunPending(cfg, sqrt, b, d)
  }

  function Run(cfg: Config, sqrt: real -> real, b: Ball, es: seq<Event>): Ball
    requires IsSqrt(sqrt)
    requires forall i :: 0 <= i < |es| ==> ValidEvent(es[i])
    decreases |es|
  {
    if |es| == 0 then b else Run(cfg, sqrt, Step(cfg, sqrt, b, es[0]), es[1..])
  }

  /** Speeds the configuration can sustain: a non-negative start speed within the cap, non-negative increments. */
  predicate ValidConfig(cfg: Config) {
    0.0 <= cfg.startSpeed <= cfg.maxSpeed && cfg.speedIncreasePerHit >= 0.0
  }

  /** The inspector defaults are a sane configuration whose speed floor, 6, lies below the cap. */
  lemma DefaultsValid()
    ensures ValidConfig(Defaults)
    ensures MinSpeed(Defaults) == 6.0 && MinSpeed(Defaults) < Defaults.maxSpeed
  {
  }

  /** The speed invariant: `currentSpeed` in its band, and the ball no faster than it. */
  predicate SpeedBounded(cfg: Config, b: Ball) {
    MinSpeed(cfg) <= b.currentSpeed <= cfg.maxSpeed
    && SqrMagnitude(b.velocity) <= Sq(b.currentSpeed)
  }

  lemma StartIsSpeedBounded(cfg: Config, b: Ball)
    requires ValidConfig(cfg)
    ensures SpeedBounded(cfg, Start(cfg, b))
  {
    RestingIsSpeedBounded(cfg, Start(cfg, b));
  }

  lemma RestingIsSpeedBounded(cfg: Config, b: Ball)
    requires ValidConfig(cfg)
    requires AtSpawn(cfg, b)
    ensures SpeedBounded(cfg, b)
  {
  }

  /** Every event keeps the speed invariant, so the ball never exceeds `maxSpeed`. */
  lemma StepKeepsSpeedBounded(cfg: Config, sqrt: real -> real, b: Ball, e: Event)
    requires IsSqrt(sqrt)
    requires ValidEvent(e)
    requires ValidConfig(cfg)
    requires SpeedBounded(cfg, b)
    ensures SpeedBounded(cfg, Step(cfg, sqrt, b, e))
    ensures SqrMagnitude(Step(cfg, sqrt, b, e).velocity) <= Sq(cfg.maxSpeed)
  {
    SpeedBelowCap(cfg, Step(cfg, sqrt, b, e));
  }

  lemma CollisionKeepsSpeedBounded(cfg: Config, sqrt: real -> real, b: Ball, c: Contact, jitter: real)
    requires IsSqrt(sqrt)
    requires ValidConfig(cfg)
    requires SpeedBounded(cfg, b)
    ensures SpeedBounded(cfg, OnCollision(cfg, sqrt, b, c, jitter))
  {
    match c.collider {
      case Wall =>
        var r := WallBounce(sqrt, b, c.normal);
        if !Normalizable(Flatten(Reflect(b.velocity, c.normal))) {
          assert SqrMagnitude(r.velocity) == 0.0;
        }
      case Paddle(paddleY, box) =>
        var r := PaddleHit(cfg, sqrt, b, paddleY, box, jitter);
        assert SpeedBounded(cfg, r);
      case OtherCollider =>
    }
  }

  lemma SpeedBelowCap(cfg: Config, b: Ball)
    requires ValidConfig(cfg)
    requires SpeedBounded(cfg, b)
    ensures SqrMagnitude(b.velocity) <= Sq(cfg.maxSpeed)
  {
    var cs := b.currentSpeed;
    MulNonneg(cs, cfg.maxSpeed - cs);
    MulNonneg(cfg.maxSpeed, cfg.maxSpeed - cs);
  }

  /** Any run of events from a bounded state stays bounded. */
  lemma {:induction false} RunKeepsSpeedBounded(cfg: Config, sqrt: real -> real, b: Ball, es: seq<Event>)
    requires IsSqrt(sqrt)
    requires forall i :: 0 <= i < |es| ==> ValidEvent(es[i])
    requires ValidConfig(cfg)
    requires SpeedBounded(cfg, b)
    ensures SpeedBounded(cfg, Run(cfg, sqrt, b, es))
    ensures SqrMagnitude(Run(cfg, sqrt, b, es).velocity) <= Sq(cfg.maxSpeed)
    decreases |es|
  {
    if |es| == 0 {
      SpeedBelowCap(cfg, b);
    } else {
      StepKeepsSpeedBounded(cfg, sqrt, b, es[0]);
      RunKeepsSpeedBounded(cfg, sqrt, Step(cfg, sqrt, b, es[0]), es[1..]);
    }
  }
}

=== FILE: ball_slowdown.dfy ===
/**
 A worked example for the ball of the 3D game (`Assets/Scripts/Ball.cs`):
 the speed floor that `Update` applies holds only between collisions. A
 bounce off a tilted collider can leave the ball slower than that floor
 until the next tick scales it back up.
 */
module BallSlowdown {
  import opened Mathf
  import opened Vectors
  import opened BallEngine

  /**
   A collision can leave the ball slower than the tick's floor of
   0.75·startSpeed: with the defaults, a ball moving along x at 8 that
   glances off a collider tilted by the normal (0.6, 0, 0.8) keeps only
   (2.24, 0, 0) once z is dropped (`SlowedThenRescaled` shows that this is
   below the floor).
   */
  lemma GlancingBounce(sqrt: real -> real, b: Ball, normal: Vec3)
    requires IsSqrt(sqrt)
    requires b == Ball(Zero3, Vec3(8.0, 0.0, 0.0), Defaults.startSpeed, [])
    requires normal == Vec3(0.6, 0.0, 0.8)
    ensures OtherBounce(sqrt, b, normal) == b.(velocity := Vec3(2.24, 0.0, 0.0))
  {
    GlancingReflection();
    GlancingDirection(sqrt);
  }

  /**
   The ball that bounce leaves is below the floor of 6 the tick applies,
   and the next tick scales it back up to its `currentSpeed`, the default 8.
   */
  lemma SlowedThenRescaled(sqrt: real -> real, r: Ball)
    requires IsSqrt(sqrt)
    requires r == Ball(Zero3, Vec3(2.24, 0.0, 0.0), Defaults.startSpeed, [])
    ensures SqrMagnitude(r.velocity) < Sq(MinSpeed(Defaults))
    ensures SqrMagnitude(Update(Defaults, sqrt, r).velocity) == Sq(Defaults.startSpeed)
  {
    assert SqrMagnitude(r.velocity) > RestingSqrSpeed;
    assert Clamp(r.currentSpeed, MinSpeed(Defaults), Defaults.maxSpeed) == 8.0;
  }

  /** The reflected velocity has length 8, so its direction is a division by 8. */
  lemma GlancingDirection(sqrt: real -> real)
    requires IsSqrt(sqrt)
    ensures Normalized(sqrt, Vec3(2.24, 0.0, -7.68)) == Vec3(0.28, 0.0, -0.96)
  {
    var refl := Vec3(2.24, 0.0, -7.68);
    assert SqrMagnitude(refl) == 64.0;
    var m := Magnitude(sqrt, refl);
    UniqueRoot(m, 8.0);
    assert Scale(refl, 1.0 / 8.0) == Vec3(0.28, 0.0, -0.96);
  }

  /** The reflection behind `GlancingBounce`, worked out. */
  lemma GlancingReflection()
    ensures Reflect(Vec3(8.0, 0.0, 0.0), Vec3(0.6, 0.0, 0.8)) == Vec3(2.24, 0.0, -7.68)
  {
    var v, normal := Vec3(8.0, 0.0, 0.0), Vec3(0.6, 0.0, 0.8);
    assert Dot(v, normal) == 4.8;
    ReflectBy(v, normal, 9.6);
    assert Sub(v, Scale(normal, 9.6)) == Vec3(2.24, 0.0, -7.68);
  }
}

=== FILE: fixed_left_ball.dfy ===
/**
 The ball of the 2D game (`PongClone/Assets/Scripts/Ball.cs`): it always
 launches toward the left at a fixed speed with a small random vertical
 component, is put back on the centre and relaunched a second later after
 a reset, and keeps its speed on every bounce.

 The one-second relaunch becomes a count of pending launches: every reset
 schedules one, and each firing consumes one. The vertical draw and the
 square root arrive as parameters.
 */
module FixedLeftBall {
  import opened Mathf
  import opened Vectors

  /** Half-width of the vertical draw of a launch. */
  const LaunchSpread: real := 0.5

  datatype Ball2 = Ball2(position: Vec2, velocity: Vec2, pendingLaunches: nat)

  /** The launch direction for a vertical draw `y`: the unit vector along (-1, y). */
  function LaunchDir(sqrt: real -> real, y: real): (d: Vec2)
    requires IsSqrt(sqrt)
    ensures SqrMagnitude2(d) == 1.0
    ensures d.x < 0.0
    ensures SameSide(d.y, y)
    ensures Aligned(Lift(d), Lift(Vec2(-1.0, y)))
  {
    var raw := Lift(Vec2(-1.0, y));
    AxisNormalizable(raw);
    NormalizedIsScale(sqrt, raw);
    var k := 1.0 / Magnitude(sqrt, raw);
    LiftNormalized2(sqrt, Vec2(-1.0, y));
    ScaledSigns(y, k);
    ScaledSigns(-1.0, k);
    Normalized2(sqrt, Vec2(-1.0, y))
  }

  /** The velocity of a launch at `speed` along the launch direction. */
  function LaunchVelocity(sqrt: real -> real, speed: real, y: real): (v: Vec2)
    requires IsSqrt(sqrt)
    ensures SqrMagnitude2(v) == Sq(speed)
    ensures speed > 0.0 ==> v.x < 0.0 && SameSide(v.y, y)
  {
    var d := LaunchDir(sqrt, y);
    ScaledUnitLeft(d, speed, y);
    Scale2(d, speed)
  }

  /** Scaling a unit vector that points left by a speed gives that speed, still pointing left with the same vertical sign. */
  lemma ScaledUnitLeft(d: Vec2, speed: real, y: real)
    requires SqrMagnitude2(d) == 1.0 && d.x < 0.0
    requires SameSide(d.y, y)
    ensures SqrMagnitude2(Scale2(d, speed)) == Sq(speed)
    ensures speed > 0.0 ==> Scale2(d, speed).x < 0.0
    ensures speed > 0.0 ==> SameSide(Scale2(d, speed).y, y)
  {
    SqrMagnitudeScale(Lift(d), speed);
    assert Lift(Scale2(d, speed)) == Scale(Lift(d), speed);
    if speed > 0.0 {
      ScaledSigns(d.y, speed);
      ScaledSigns(d.x, speed);
    }
  }

  /** `LaunchToLeft`: the ball heads left at `speed`, tilted by the draw; position and pending launches are kept. */
  function LaunchToLeft(sqrt: real -> real, b: Ball2, speed: real, y: real): (r: Ball2)
    requires IsSqrt(sqrt)
    ensures r.position == b.position && r.pendingLaunches == b.pendingLaunches
    ensures SqrMagnitude2(r.velocity) == Sq(speed)
    ensures speed > 0.0 ==> r.velocity.x < 0.0 && SameSide(r.velocity.y, y)
  {
    b.(velocity := LaunchVelocity(sqrt, speed, y))
  }

  /** `Start`: the ball launches left at once, from wherever it was placed. */
  function Start(sqrt: real -> real, position: Vec2, speed: real, y: real): (r: Ball2)
    requires IsSqrt(sqrt)
    ensures r.position == position && r.pendingLaunches == 0
    ensures SqrMagnitude2(r.velocity) == Sq(speed)
    ensures speed > 0.0 ==> r.velocity.x < 0.0
  {
    LaunchToLeft(sqrt, Ball2(position, Zero2, 0), speed, y)
  }

  /** `ResetBall`: back to the centre at rest, with one more launch scheduled. */
  function ResetBall(b: Ball2): (r: Ball2)
    ensures r.position == Zero2 && r.velocity == Zero2
    ensures r.pendingLaunches == b.pendingLaunches + 1
  {
    Ball2(Zero2, Zero2, b.pendingLaunches + 1)
  }

  /** A scheduled launch fires: with one pending, launch left and consume it; with none, nothing happens. */
  function FireLaunch(sqrt: real -> real, b: Ball2, speed: real, y: real): (r: Ball2)
    requires IsSqrt(sqrt)
    ensures b.pendingLaunches == 0 ==> r == b
    ensures b.pendingLaunches > 0 ==>
      && r.position == b.position
      && r.pendingLaunches == b.pendingLaunches - 1
      && SqrMagnitude2(r.velocity) == Sq(speed)
      && (speed > 0.0 ==> r.velocity.x < 0.0)
  {
    if b.pendingLaunches > 0 then
      LaunchToLeft(sqrt, b.(pendingLaunches := b.pendingLaunches - 1), speed, y)
    else
      b
  }

  /** `OnCollisionEnter2D`: keep the direction, restore the speed; a (near-)zero velocity becomes zero. */
  function OnCollision(sqrt: real -> real, b: Ball2, speed: real): (r: Ball2)
    requires IsSqrt(sqrt)
    ensures r.position == b.position && r.pendingLaunches == b.pendingLaunches
    ensures Normalizable(Lift(b.velocity)) ==>
      && SqrMagnitude2(r.velocity) == Sq(speed)
      && (speed >= 0.0 ==> Aligned(Lift(r.velocity), Lift(b.velocity)))
    ensures !Normalizable(Lift(b.velocity)) ==> r.velocity == Zero2
  {
    var n := Normalized2(sqrt, b.velocity);
    LiftNormalized2(sqrt, b.velocity);
    assert Lift(Scale2(n, speed)) == Scale(Lift(n), speed);
    if Normalizable(Lift(b.velocity)) then
      ScaleUnitAlong(Lift(n), Lift(b.velocity), speed);
      b.(velocity := Scale2(n, speed))
    else
      b.(velocity := Scale2(n, speed))
  }

  /** A zero velocity stays zero through a bounce. */
  lemma RestingBounce(sqrt: real -> real, b: Ball2, speed: real)
    requires IsSqrt(sqrt)
    requires b.velocity == Zero2
    ensures OnCollision(sqrt, b, speed).velocity == Zero2
  {
    assert SqrMagnitude(Lift(Zero2)) == 0.0;
  }

  /** Bouncing again at once changes nothing: the first bounce already set the speed. */
  lemma CollisionIdempotent(sqrt: real -> real, b: Ball2, speed: real)
    requires IsSqrt(sqrt)
    requires speed > NormalizeEpsilon
    ensures OnCollision(sqrt, OnCollision(sqrt, b, speed), speed) == OnCollision(sqrt, b, speed)
  {
    var r := OnCollision(sqrt, b, speed);
    var n := Normalized2(sqrt, b.velocity);
    LiftNormalized2(sqrt, b.velocity);
    if Normalizable(Lift(b.velocity)) {
      assert Lift(r.velocity) == Scale(Lift(n), speed);
      NormalizedScaledUnit(sqrt, Lift(n), speed);
      LiftNormalized2(sqrt, r.velocity);
      assert Normalized2(sqrt, r.velocity) == n;
    } else {
      RestingBounce(sqrt, r, speed);
    }
  }

  /** A reset followed by its scheduled launch puts the ball on the centre heading left at `speed`. */
  lemma ResetThenRelaunch(sqrt: real -> real, b: Ball2, speed: real, y: real)
    requires IsSqrt(sqrt)
    requires speed > 0.0
    ensures var r := FireLaunch(sqrt, ResetBall(b), speed, y);
      && r.position == Zero2
      && r.pendingLaunches == b.pendingLaunches
      && r.velocity.x < 0.0
      && SqrMagnitude2(r.velocity) == Sq(speed)
  {
  }

  /** With the script's draw range the launch is at most as steep as 1 in 2: |vy| is at most half of |vx|. */
  lemma LaunchIsShallow(sqrt: real -> real, speed: real, y: real)
    requires IsSqrt(sqrt)
    requires Abs(y) <= LaunchSpread
    ensures var v := LaunchVelocity(sqrt, speed, y);
      4.0 * Sq(v.y) <= Sq(v.x)
  {
    var raw := Lift(Vec2(-1.0, y));
    AxisNormalizable(raw);
    NormalizedIsScale(sqrt, raw);
    LiftNormalized2(sqrt, Vec2(-1.0, y));
    var k := 1.0 / Magnitude(sqrt, raw);
    assert LaunchDir(sqrt, y) == Scale2(Vec2(-1.0, y), k);
    ShallowScaled(y, k, speed);
  }

  /** The arithmetic behind `LaunchIsShallow`: scaling (-1, y) twice keeps |y| against 1. */
  lemma ShallowScaled(y: real, k: real, s: real)
    requires Abs(y) <= LaunchSpread
    ensures var v := Scale2(Scale2(Vec2(-1.0, y), k), s);
      4.0 * Sq(v.y) <= Sq(v.x)
  {
    var c := k * s;
    var v := Scale2(Scale2(Vec2(-1.0, y), k), s);
    assert v.x == -c && v.y == y * c;
    SqMul(y, c);
    SqNeg(c);
    SqAbs(y);
    if Abs(y) < LaunchSpread {
      SqMonotone(Abs(y), LaunchSpread);
    }
    MulNonneg(0.25 - Sq(y), Sq(c));
  }
}

=== FILE: mathf.dfy ===
/**
 Scalar helpers of the game engine's `Mathf` class, over `real`.
 Each one follows the engine's definition, including its edge cases:
 `Sign(0)` is `+1`, `Clamp` with inverted bounds returns one of the bounds,
 `Lerp` clamps its factor into [0, 1].
 */
module Mathf {

  function Abs(x: real): (r: real)
    ensures r >= 0.0
    ensures r == x || r == -x
  {
    if x < 0.0 then -x else x
  }

  /** The square of a number, kept as a function of its own so that proofs can treat squares as atoms. */
  function Sq(a: real): (r: real)
    ensures r >= 0.0
  {
    SelfMulNonneg(a);
    a * a
  }

  function Min(a: real, b: real): (r: real)
    ensures r <= a && r <= b
    ensures r == a || r == b
  {
    if a < b then a else b
  }

  function Max(a: real, b: real): (r: real)
    ensures r >= a && r >= b
    ensures r == a || r == b
  {
    if a > b then a else b
  }

  /** The engine's sign: non-negative numbers (zero included) give +1. */
  function Sign(f: real): (r: real)
    ensures r == 1.0 || r == -1.0
    ensures r * f == Abs(f)
    ensures r == 1.0 <==> f >= 0.0
  {
    if f >= 0.0 then 1.0 else -1.0
  }

  /** The engine's clamp: the lower bound is tested first. */
  function Clamp(value: real, lo: real, hi: real): (r: real)
    ensures lo <= hi ==> lo <= r <= hi
    ensures lo <= value <= hi ==> r == value
    ensures r == value || r == lo || r == hi
    ensures value < lo ==> r == lo
    ensures lo <= hi < value ==> r == hi
  {
    if value < lo then lo else if value > hi then hi else value
  }

  function Clamp01(t: real): (r: real)
    ensures 0.0 <= r <= 1.0
    ensures 0.0 <= t <= 1.0 ==> r == t
  {
    Clamp(t, 0.0, 1.0)
  }

  predicate Between(x: real, a: real, b: real) {
    Min(a, b) <= x <= Max(a, b)
  }

  /** Linear interpolation with the factor clamped into [0, 1]. */
  function Lerp(a: real, b: real, t: real): (r: real)
    ensures Between(r, a, b)
    ensures t <= 0.0 ==> r == a
    ensures t >= 1.0 ==> r == b
    ensures a == b ==> r == a
    ensures 0.0 <= t <= 1.0 ==> b - r == (1.0 - t) * (b - a)
  {
    var p := Fraction(b - a, Clamp01(t));
    assert 0.0 <= t <= 1.0 ==> (1.0 - t) * (b - a) == (b - a) - (b - a) * t;
    a + p
  }

  /** The part `d * u` of a span `d` for `u` in [0, 1]: it lies between 0 and `d`. */
  function Fraction(d: real, u: real): (p: real)
    requires 0.0 <= u <= 1.0
    ensures d >= 0.0 ==> 0.0 <= p <= d
    ensures d <= 0.0 ==> d <= p <= 0.0
    ensures u == 0.0 ==> p == 0.0
    ensures u == 1.0 ==> p == d
    ensures p == d * u
  {
    if d >= 0.0 then
      MulNonneg(d, u);
      MulNonneg(d, 1.0 - u);
      d * u
    else
      MulNonneg(-d, u);
      MulNonneg(-d, 1.0 - u);
      d * u
  }

  /**
   Moves `current` toward `target` by at most `maxDelta`, landing on the
   target when it is that close.
   */
  function MoveTowards(current: real, target: real, maxDelta: real): (r: real)
    ensures Abs(target - current) <= maxDelta ==> r == target
    ensures maxDelta >= 0.0 ==> Abs(r - current) <= maxDelta
    ensures maxDelta >= 0.0 ==> Between(r, current, target)
    ensures maxDelta >= 0.0 ==> Abs(target - r) == Max(Abs(target - current) - maxDelta, 0.0)
  {
    if Abs(target - current) <= maxDelta then target
    else current + Sign(target - current) * maxDelta
  }

  lemma MulNonneg(x: real, y: real)
    requires x >= 0.0 && y >= 0.0
    ensures x * y >= 0.0
  {
  }

  lemma SelfMulNonneg(a: real)
    ensures a * a >= 0.0
  {
    if a < 0.0 {
      MulNonneg(-a, -a);
    } else {
      MulNonneg(a, a);
    }
  }

  lemma MulPos(x: real, y: real)
    requires x > 0.0 && y > 0.0
    ensures x * y > 0.0
  {
  }

  /** `a` and `b` lie on the same side of zero, or are both zero. */
  predicate SameSide(a: real, b: real) {
    (a > 0.0 <==> b > 0.0) && (a < 0.0 <==> b < 0.0)
  }

  /** A positive factor keeps every sign. */
  lemma ScaledSigns(a: real, k: real)
    requires k > 0.0
    ensures SameSide(a * k, a)
  {
    if a > 0.0 {
      MulPos(a, k);
    } else if a < 0.0 {
      MulPos(-a, k);
    }
  }

  lemma SqPos(a: real)
    requires a != 0.0
    ensures Sq(a) > 0.0
  {
    if a > 0.0 {
      var s := Sq(a);
      assert s / a == a;
    } else {
      var b := -a;
      var s := Sq(b);
      assert s / b == b;
      assert Sq(b) == Sq(a);
    }
  }

  lemma SqNeg(a: real)
    ensures Sq(-a) == Sq(a)
  {
  }

  lemma SqMul(a: real, b: real)
    ensures Sq(a * b) == Sq(a) * Sq(b)
  {
  }

  lemma SqAbs(a: real)
    ensures Sq(Abs(a)) == Sq(a)
  {
    SqNeg(a);
  }

  /** Squaring is strictly increasing on the non-negative numbers. */
  lemma SqMonotone(a: real, b: real)
    requires 0.0 <= a < b
    ensures Sq(a) < Sq(b)
  {
    var d := b - a;
    var s := b + a;
    MulPos(d, s);
    assert d * s == Sq(b) - Sq(a);
  }

  /** A number whose square is below the square of a non-negative bound is below it in absolute value. */
  lemma SqBelow(a: real, m: real)
    requires m >= 0.0 && Sq(a) < Sq(m)
    ensures Abs(a) < m
  {
    SqAbs(a);
    if Abs(a) > m {
      SqMonotone(m, Abs(a));
    }
  }

  /** Non-negative square roots are unique. */
  lemma UniqueRoot(m: real, n: real)
    requires m >= 0.0 && n >= 0.0 && Sq(m) == Sq(n)
    ensures m == n
  {
    if m < n {
      SqMonotone(m, n);
    } else if n < m {
      SqMonotone(n, m);
    }
  }

  /** Reference definition of the clamp for ordered bounds. */
  lemma ClampIsMinMax(value: real, lo: real, hi: real)
    requires lo <= hi
    ensures Clamp(value, lo, hi) == Min(Max(value, lo), hi)
  {
  }

  /**
   With inverted bounds the clamp never returns the value itself unless it
   equals a bound: everything below `lo` goes to `lo`, everything else to `hi`.
   */
  lemma ClampInverted(value: real, lo: real, hi: real)
    requires hi < lo
    ensures value < lo ==> Clamp(value, lo, hi) == lo
    ensures value >= lo ==> Clamp(value, lo, hi) == hi
  {
  }
}

=== FILE: paddle_left.dfy ===
/**
 The player-controlled left paddle (`PongClone/Assets/Scripts/PaddleLeft.cs`).
 Each tick reads the W and S keys, moves the paddle vertically by
 `input * speed * dt`, and clamps its height so the sprite stays inside the
 camera's view. The key states, the frame time, the camera's orthographic
 size and the sprite's half-height arrive as parameters.
 */
module PaddleLeftInput {
  import opened Mathf
  import opened Vectors

  /** The two movement keys held this frame. */
  datatype Keys = Keys(w: bool, s: bool)

  /** The paddle's setting and the view it must stay inside. */
  datatype View = View(speed: real, orthographicSize: real, halfHeight: real)

  /** Key to axis: W is up, otherwise S is down, otherwise nothing; W wins when both are held. */
  function InputAxis(k: Keys): (a: real)
    ensures a == 1.0 <==> k.w
    ensures a == -1.0 <==> !k.w && k.s
    ensures a == 0.0 <==> !k.w && !k.s
  {
    if k.w then 1.0 else if k.s then -1.0 else 0.0
  }

  /** Highest allowed centre height: the top of the view less the half-height. */
  function Top(v: View): (t: real)
    ensures t >= 0.0 <==> Fits(v)
  {
    v.orthographicSize - v.halfHeight
  }

  /** Lowest allowed centre height. */
  function Bottom(v: View): (b: real)
    ensures b == -Top(v)
    ensures b <= Top(v) <==> Fits(v)
  {
    -v.orthographicSize + v.halfHeight
  }

  /** The view is tall enough for the paddle. */
  predicate Fits(v: View) {
    v.halfHeight <= v.orthographicSize
  }

  predicate Inside(v: View, y: real) {
    Bottom(v) <= y <= Top(v)
  }

  /** `Update`: step by the input and clamp into the view; x is never touched. */
  function Step(v: View, pos: Vec2, k: Keys, dt: real): (r: Vec2)
    ensures r.x == pos.x
    ensures Fits(v) ==> Inside(v, r.y)
    ensures Inside(v, pos.y + InputAxis(k) * v.speed * dt) ==> r.y == pos.y + InputAxis(k) * v.speed * dt
    ensures r.y == pos.y + InputAxis(k) * v.speed * dt || r.y == Bottom(v) || r.y == Top(v)
    ensures pos.y + InputAxis(k) * v.speed * dt < Bottom(v) ==> r.y == Bottom(v)
    ensures Fits(v) && Top(v) < pos.y + InputAxis(k) * v.speed * dt ==> r.y == Top(v)
  {
    var next := Vec2(pos.x, pos.y + InputAxis(k) * v.speed * dt);
    next.(y := Clamp(next.y, Bottom(v), Top(v)))
  }

  /** With no key held, a paddle inside the view stays where it is. */
  lemma IdleStays(v: View, pos: Vec2, dt: real)
    requires Inside(v, pos.y)
    ensures Step(v, pos, Keys(false, false), dt) == pos
  {
  }

  /**
   Holding W never moves a paddle inside the view down, holding only S never
   moves it up, and either way it moves at most `speed * dt`.
   */
  lemma KeysMoveTheWayTheyPoint(v: View, pos: Vec2, k: Keys, dt: real)
    requires Fits(v) && Inside(v, pos.y)
    requires v.speed >= 0.0 && dt >= 0.0
    ensures k.w ==> pos.y <= Step(v, pos, k, dt).y <= pos.y + v.speed * dt
    ensures !k.w && k.s ==> pos.y - v.speed * dt <= Step(v, pos, k, dt).y <= pos.y
  {
    MulNonneg(v.speed, dt);
    var a := InputAxis(k);
    assert a * v.speed * dt == a * (v.speed * dt);
  }

  /** A run of frames, each with its keys and frame time. */
  function Steps(v: View, pos: Vec2, frames: seq<(Keys, real)>): Vec2
    decreases |frames|
  {
    if |frames| == 0 then pos else Steps(v, Step(v, pos, frames[0].0, frames[0].1), frames[1..])
  }

  /** Any sequence of frames keeps a paddle that starts inside the view inside it. */
  lemma {:induction false} StepsStayInside(v: View, pos: Vec2, frames: seq<(Keys, real)>)
    requires Fits(v)
    requires Inside(v, pos.y)
    ensures Inside(v, Steps(v, pos, frames).y)
    ensures Steps(v, pos, frames).x == pos.x
    decreases |frames|
  {
    if |frames| > 0 {
      StepsStayInside(v, Step(v, pos, frames[0].0, frames[0].1), frames[1..]);
    }
  }
}

=== FILE: paddle_right.dfy ===
/**
 The computer-controlled right paddle (`PongClone/Assets/Scripts/PaddleRight.cs`).
 Each tick it picks a target height (a short prediction of the ball while
 the ball heads right, the court centre otherwise), clamps it to the court,
 smooths it with a reaction filter, and moves toward it at a bounded speed
 unless it is already within a dead zone. x and z are pinned to where the
 paddle started.

 The frame time, the aim jitter draw and the filter's blend factor
 (`1 - exp(-dt / reactionLag)` in the script) arrive as parameters.
 */
module PaddleRightAi {
  import opened Mathf
  import opened Vectors

  datatype AiConfig = AiConfig(
    moveSpeed: real,
    topLimit: real,
    bottomLimit: real,
    centerY: real,
    lookAhead: real,
    aimJitter: real,
    deadZone: real,
    reactionLag: real)

  /** The inspector defaults of the script. */
  const AiDefaults: AiConfig := AiConfig(9.0, 3.5, -3.5, 0.0, 0.35, 0.15, 0.05, 0.0)

  /** Horizontal ball speed above which the ball counts as heading toward the paddle. */
  const ComingRightSpeed: real := 0.01

  /** The ball's rigidbody, when it has one. */
  datatype BallBody = NoBody | Body(velocity: Vec3)

  /** What the paddle sees of the ball in a tick: nothing, or its position and (maybe) its rigidbody. */
  datatype BallView = NoBall | Seen(position: Vec3, body: BallBody)

  /** The paddle: its settings (the limits can be changed at run time), position, pinned x and z, and filtered target. */
  datatype AiPaddle = AiPaddle(cfg: AiConfig, position: Vec3, fixedX: real, fixedZ: real, delayedTargetY: real)

  /** The per-tick inputs: frame time, aim jitter draw and reaction-filter blend factor. */
  datatype TickDraw = TickDraw(dt: real, jitter: real, blend: real)

  /** Both limits in order and the paddle's height and filtered target between them. */
  predicate InLimits(p: AiPaddle) {
    p.cfg.bottomLimit <= p.cfg.topLimit
    && p.cfg.bottomLimit <= p.position.y <= p.cfg.topLimit
    && p.cfg.bottomLimit <= p.delayedTargetY <= p.cfg.topLimit
  }

  /** `Start`: remember x and z; with a ball, the filtered target starts at the paddle's own height. */
  function Start(cfg: AiConfig, position: Vec3, ball: BallView): (p: AiPaddle)
    ensures p.cfg == cfg && p.position == position
    ensures p.fixedX == position.x && p.fixedZ == position.z
    ensures ball.Seen? ==> p.delayedTargetY == position.y
    ensures ball == NoBall ==> p.delayedTargetY == 0.0
    ensures ball.Seen? && cfg.bottomLimit <= position.y <= cfg.topLimit ==> InLimits(p)
  {
    AiPaddle(cfg, position, position.x, position.z, if ball.Seen? then position.y else 0.0)
  }

  /** Whether the ball counts as heading toward the paddle: only a ball with a rigidbody moving right fast enough does. */
  predicate Predicting(ball: BallView)
    ensures Predicting(ball) ==> ball.Seen? && ball.body.Body? && ball.body.velocity.x > 0.0
    ensures ball.Seen? && ball.body.Body? && ball.body.velocity.x <= 0.0 ==> !Predicting(ball)
  {
    ball.Seen? && ball.body.Body? && ball.body.velocity.x > ComingRightSpeed
  }

  /** The raw target height: the predicted ball height plus jitter while predicting, the court centre otherwise. */
  function ChooseTarget(cfg: AiConfig, ball: BallView, jitter: real): (t: real)
    ensures !Predicting(ball) ==> t == cfg.centerY
    ensures Predicting(ball) ==>
      t - ball.position.y == ball.body.velocity.y * cfg.lookAhead + jitter
    ensures Predicting(ball) && Abs(jitter) <= cfg.aimJitter ==>
      Abs(t - (ball.position.y + ball.body.velocity.y * cfg.lookAhead)) <= cfg.aimJitter
  {
    if Predicting(ball) then
      ball.position.y + ball.body.velocity.y * cfg.lookAhead + jitter
    else
      cfg.centerY
  }

  /** The target clamped to the court. */
  function AimPoint(cfg: AiConfig, ball: BallView, jitter: real): (t: real)
    ensures cfg.bottomLimit <= cfg.topLimit ==> cfg.bottomLimit <= t <= cfg.topLimit
    ensures cfg.bottomLimit <= ChooseTarget(cfg, ball, jitter) <= cfg.topLimit ==> t == ChooseTarget(cfg, ball, jitter)
    ensures t == ChooseTarget(cfg, ball, jitter) || t == cfg.bottomLimit || t == cfg.topLimit
    ensures ChooseTarget(cfg, ball, jitter) < cfg.bottomLimit ==> t == cfg.bottomLimit
    ensures cfg.bottomLimit <= cfg.topLimit < ChooseTarget(cfg, ball, jitter) ==> t == cfg.topLimit
  {
    Clamp(ChooseTarget(cfg, ball, jitter), cfg.bottomLimit, cfg.topLimit)
  }

  /** The reaction filter: with a lag, part of the way from the old filtered target toward the new one; without, the new one. */
  function Filter(cfg: AiConfig, previous: real, target: real, blend: real): (f: real)
    ensures cfg.reactionLag <= 0.0 ==> f == target
    ensures Between(f, previous, target)
    ensures cfg.reactionLag > 0.0 && blend <= 0.0 ==> f == previous
    ensures blend >= 1.0 ==> f == target
    ensures cfg.reactionLag > 0.0 && 0.0 <= blend <= 1.0 ==> target - f == (1.0 - blend) * (target - previous)
  {
    if cfg.reactionLag > 0.0 then Lerp(previous, target, blend) else target
  }

  /** The vertical move: stay inside the dead zone, otherwise step toward the filtered target. */
  function MoveY(cfg: AiConfig, y: real, goal: real, dt: real): (ny: real)
    ensures Abs(goal - y) <= cfg.deadZone ==> ny == y
    ensures cfg.moveSpeed * dt >= 0.0 ==> Abs(ny - y) <= cfg.moveSpeed * dt
    ensures cfg.moveSpeed * dt >= 0.0 ==> Between(ny, y, goal)
    ensures Abs(goal - y) > cfg.deadZone && Abs(goal - y) <= cfg.moveSpeed * dt ==> ny == goal
    ensures cfg.moveSpeed * dt >= 0.0 && Abs(goal - y) > cfg.deadZone ==>
      Abs(goal - ny) == Max(Abs(goal - y) - cfg.moveSpeed * dt, 0.0)
  {
    if Abs(goal - y) > cfg.deadZone then MoveTowards(y, goal, cfg.moveSpeed * dt) else y
  }

  /** `Update`: one tick of the paddle. */
  function Tick(p: AiPaddle, ball: BallView, d: TickDraw): (r: AiPaddle)
    ensures ball == NoBall ==> r == p
    ensures r.cfg == p.cfg && r.fixedX == p.fixedX && r.fixedZ == p.fixedZ
    ensures ball.Seen? ==>
      && r.position.x == p.fixedX && r.position.z == p.fixedZ
      && Between(r.delayedTargetY, p.delayedTargetY, AimPoint(p.cfg, ball, d.jitter))
      && (p.cfg.reactionLag <= 0.0 ==> r.delayedTargetY == AimPoint(p.cfg, ball, d.jitter))
      && (Abs(r.delayedTargetY - p.position.y) <= p.cfg.deadZone ==> r.position.y == p.position.y)
      && (p.cfg.moveSpeed * d.dt >= 0.0 ==>
            && Abs(r.position.y - p.position.y) <= p.cfg.moveSpeed * d.dt
            && Between(r.position.y, p.position.y, r.delayedTargetY))
      && (Abs(r.delayedTargetY - p.position.y) > p.cfg.deadZone ==>
            && (Abs(r.delayedTargetY - p.position.y) <= p.cfg.moveSpeed * d.dt ==> r.position.y == r.delayedTargetY)
            && (p.cfg.moveSpeed * d.dt >= 0.0 ==>
                  Abs(r.delayedTargetY - r.position.y) == Max(Abs(r.delayedTargetY - p.position.y) - p.cfg.moveSpeed * d.dt, 0.0)))
    ensures InLimits(p) && p.cfg.moveSpeed * d.dt >= 0.0 ==> InLimits(r)
  {
    match ball
    case NoBall => p
    case Seen(_, _) =>
      var aim := AimPoint(p.cfg, ball, d.jitter);
      var delayed := Filter(p.cfg, p.delayedTargetY, aim, d.blend);
      var y := MoveY(p.cfg, p.position.y, delayed, d.dt);
      assert InLimits(p) && p.cfg.moveSpeed * d.dt >= 0.0 ==>
        p.cfg.bottomLimit <= delayed <= p.cfg.topLimit && p.cfg.bottomLimit <= y <= p.cfg.topLimit by {
        if InLimits(p) && p.cfg.moveSpeed * d.dt >= 0.0 {
          BetweenInInterval(delayed, p.delayedTargetY, aim, p.cfg.bottomLimit, p.cfg.topLimit);
          BetweenInInterval(y, p.position.y, delayed, p.cfg.bottomLimit, p.cfg.topLimit);
        }
      }
      p.(position := Vec3(p.fixedX, y, p.fixedZ), delayedTargetY := delayed)
  }

  /** `SetVerticalLimits`: store the new limits as given, without checking their order. */
  function SetVerticalLimits(p: AiPaddle, bottom: real, top: real): (r: AiPaddle)
    ensures r.cfg.bottomLimit == bottom && r.cfg.topLimit == top
    ensures r.cfg.(bottomLimit := p.cfg.bottomLimit, topLimit := p.cfg.topLimit) == p.cfg
    ensures r.(cfg := p.cfg) == p
  {
    p.(cfg := p.cfg.(bottomLimit := bottom, topLimit := top))
  }

  /** A value between two values that lie in an interval lies in it too. */
  lemma BetweenInInterval(x: real, a: real, b: real, lo: real, hi: real)
    requires Between(x, a, b)
    requires lo <= a <= hi && lo <= b <= hi
    ensures lo <= x <= hi
  {
  }




  /** One frame of a run: what the paddle sees of the ball, and that tick's inputs. */
  datatype Frame = Frame(ball: BallView, draw: TickDraw)

  /** A run of ticks, one per frame, each with that frame's view of the ball. */
  function Ticks(p: AiPaddle, frames: seq<Frame>): AiPaddle
    decreases |frames|
  {
    if |frames| == 0 then p else Ticks(Tick(p, frames[0].ball, frames[0].draw), frames[1..])
  }

  /** The limit invariant survives any run of ticks with non-negative frame times, whatever the ball does. */
  lemma {:induction false} TicksKeepInLimits(p: AiPaddle, frames: seq<Frame>)
    requires InLimits(p)
    requires p.cfg.moveSpeed >= 0.0
    requires forall i :: 0 <= i < |frames| ==> frames[i].draw.dt >= 0.0
    ensures InLimits(Ticks(p, frames))
    ensures Ticks(p, frames).cfg == p.cfg
    decreases |frames|
  {
    if |frames| > 0 {
      var f := frames[0];
      MulNonneg(p.cfg.moveSpeed, f.draw.dt);
      TicksKeepInLimits(Tick(p, f.ball, f.draw), frames[1..]);
    }
  }

  /** Through frames without a ball reference nothing ever moves. */
  lemma {:induction false} NoBallStill(p: AiPaddle, frames: seq<Frame>)
    requires forall i :: 0 <= i < |frames| ==> frames[i].ball == NoBall
    ensures Ticks(p, frames) == p
    decreases |frames|
  {
    if |frames| > 0 {
      NoBallStill(Tick(p, NoBall, frames[0].draw), frames[1..]);
    }
  }

  /**
   * The limits invariant does not survive `SetVerticalLimits`: narrowing (-5, 5) to (-1, 1)
   * strands a paddle at height 3 outside the new limits, and with no ball in view no tick brings it back.
   */
  lemma {:induction false} NarrowedLimitsStrand(p: AiPaddle, frames: seq<Frame>)
    requires p.cfg.bottomLimit == -5.0 && p.cfg.topLimit == 5.0
    requires p.position.y == 3.0 && p.delayedTargetY == 0.0
    requires forall i :: 0 <= i < |frames| ==> frames[i].ball == NoBall
    ensures InLimits(p)
    ensures !InLimits(SetVerticalLimits(p, -1.0, 1.0))
    ensures Ticks(SetVerticalLimits(p, -1.0, 1.0), frames).position.y == 3.0
    ensures !InLimits(Ticks(SetVerticalLimits(p, -1.0, 1.0), frames))
  {
    NoBallStill(SetVerticalLimits(p, -1.0, 1.0), frames);
  }

  /**
   With the limits set in the wrong order the clamp no longer keeps the aim
   inside them: a target below the bottom limit is raised to the bottom
   limit, and every other target (which is then above the top limit) is
   lowered to the top limit.
   */
  lemma InvertedLimitsAim(cfg: AiConfig, ball: BallView, jitter: real)
    requires cfg.topLimit < cfg.bottomLimit
    ensures ChooseTarget(cfg, ball, jitter) < cfg.bottomLimit ==> AimPoint(cfg, ball, jitter) == cfg.bottomLimit
    ensures ChooseTarget(cfg, ball, jitter) >= cfg.bottomLimit ==> AimPoint(cfg, ball, jitter) == cfg.topLimit
  {
    ClampInverted(ChooseTarget(cfg, ball, jitter), cfg.bottomLimit, cfg.topLimit);
  }

  /**
   With the inspector defaults there is no reaction lag: each tick that sees
   the ball takes the aim point as its filtered target, inside [-3.5, 3.5].
   */
  lemma DefaultsReactAtOnce(p: AiPaddle, ball: BallView, d: TickDraw)
    requires p.cfg == AiDefaults
    requires ball.Seen?
    ensures Tick(p, ball, d).delayedTargetY == AimPoint(AiDefaults, ball, d.jitter)
    ensures -3.5 <= Tick(p, ball, d).delayedTargetY <= 3.5
  {
  }

  /** A paddle resting on its filtered target, within the dead zone, stays put while the target does not change. */
  lemma DeadZoneRest(p: AiPaddle, ball: BallView, d: TickDraw)
    requires ball.Seen?
    requires p.cfg.reactionLag <= 0.0
    requires Abs(AimPoint(p.cfg, ball, d.jitter) - p.position.y) <= p.cfg.deadZone
    requires p.position.x == p.fixedX && p.position.z == p.fixedZ
    ensures Tick(p, ball, d).position == p.position
  {
  }
}

=== FILE: vectors.dfy ===
/**
 The engine's `Vector3` and `Vector2` value types over `real`, with the
 operations the game scripts use: dot product, scaling, `normalized`,
 `Reflect` and squared magnitude.

 The square root is not definable here, so every operation that needs a
 magnitude takes it as a parameter `sqrt` and requires `IsSqrt(sqrt)`:
 for non-negative `x`, `sqrt(x)` is non-negative and squares back to `x`.
 */
module Vectors {
  import opened Mathf

  datatype Vec3 = Vec3(x: real, y: real, z: real)

  datatype Vec2 = Vec2(x: real, y: real)

  const Zero3: Vec3 := Vec3(0.0, 0.0, 0.0)

  const Zero2: Vec2 := Vec2(0.0, 0.0)

  /** The engine's `kEpsilon`: `normalized` gives zero for vectors no longer than this. */
  const NormalizeEpsilon: real := 0.00001

  ghost predicate IsSqrt(sqrt: real -> real) {
    forall x :: 0.0 <= x ==> 0.0 <= sqrt(x) && Sq(sqrt(x)) == x
  }

  function Sub(a: Vec3, b: Vec3): Vec3 {
    Vec3(a.x - b.x, a.y - b.y, a.z - b.z)
  }

  function Scale(v: Vec3, k: real): Vec3 {
    Vec3(v.x * k, v.y * k, v.z * k)
  }

  function Dot(a: Vec3, b: Vec3): real {
    a.x * b.x + a.y * b.y + a.z * b.z
  }

  function Cross(a: Vec3, b: Vec3): Vec3 {
    Vec3(a.y * b.z - a.z * b.y, a.z * b.x - a.x * b.z, a.x * b.y - a.y * b.x)
  }

  /** `sqrMagnitude`: the sum of the squared components, never negative. */
  function SqrMagnitude(v: Vec3): (r: real)
    ensures r >= 0.0
  {
    Sq(v.x) + Sq(v.y) + Sq(v.z)
  }

  /** `a` is a non-negative multiple of `b` (for non-zero `b`): same direction. */
  predicate Aligned(a: Vec3, b: Vec3) {
    Cross(a, b) == Zero3 && Dot(a, b) >= 0.0
  }

  /** Vectors that `normalized` turns into unit vectors rather than zero. */
  predicate Normalizable(v: Vec3) {
    SqrMagnitude(v) > Sq(NormalizeEpsilon)
  }

  function Magnitude(sqrt: real -> real, v: Vec3): (m: real)
    requires IsSqrt(sqrt)
    ensures m >= 0.0 && Sq(m) == SqrMagnitude(v)
    ensures m > NormalizeEpsilon <==> Normalizable(v)
  {
    var m := sqrt(SqrMagnitude(v));
    RootAboveEpsilon(m, SqrMagnitude(v));
    m
  }

  /** The engine's `normalized`: a unit vector in the same direction, or zero for a (near-)zero vector. */
  function Normalized(sqrt: real -> real, v: Vec3): (r: Vec3)
    requires IsSqrt(sqrt)
    ensures Normalizable(v) ==> SqrMagnitude(r) == 1.0 && Aligned(r, v)
    ensures !Normalizable(v) ==> r == Zero3
    ensures v.z == 0.0 ==> r.z == 0.0
  {
    var m := Magnitude(sqrt, v);
    if m > NormalizeEpsilon then
      ScaleByInverseRoot(v, m);
      Scale(v, 1.0 / m)
    else
      Zero3
  }

  /** The engine's `Reflect`: `v - 2 (v . n) n`. */
  function Reflect(v: Vec3, n: Vec3): (r: Vec3)
    ensures Cross(r, n) == Cross(v, n)
    ensures SqrMagnitude(n) == 1.0 ==> Dot(r, n) == -Dot(v, n)
    ensures SqrMagnitude(n) == 1.0 ==> SqrMagnitude(r) == SqrMagnitude(v)
  {
    var k := 2.0 * Dot(v, n);
    var r := Sub(v, Scale(n, k));
    DotSubScale(v, n, k, n);
    DotSubScale(v, n, k, v);
    DotSubScale(v, n, k, r);
    CrossSubScale(v, n, k);
    assert Dot(n, n) == SqrMagnitude(n);
    assert Dot(v, v) == SqrMagnitude(v);
    assert Dot(r, r) == SqrMagnitude(r);
    assert Dot(v, r) == Dot(r, v);
    assert Dot(n, r) == Dot(r, n);
    assert Dot(n, v) == Dot(v, n);
    r
  }

  /** `Reflect` with its factor `2 (v . n)` already known, for concrete vectors. */
  lemma ReflectBy(v: Vec3, n: Vec3, k: real)
    requires k == 2.0 * Dot(v, n)
    ensures Reflect(v, n) == Sub(v, Scale(n, k))
  {
  }

  /** Zeroes the third component (the game's `KeepZ`). */
  function Flatten(v: Vec3): (r: Vec3)
    ensures r.z == 0.0 && r.x == v.x && r.y == v.y
  {
    v.(z := 0.0)
  }

  function Lift(v: Vec2): Vec3 {
    Vec3(v.x, v.y, 0.0)
  }

  function SqrMagnitude2(v: Vec2): real {
    SqrMagnitude(Lift(v))
  }

  function Scale2(v: Vec2, k: real): Vec2 {
    Vec2(v.x * k, v.y * k)
  }

  /** `Vector2.normalized`, which agrees with `Vector3.normalized` on the plane z = 0. */
  function Normalized2(sqrt: real -> real, v: Vec2): (r: Vec2)
    requires IsSqrt(sqrt)
    ensures Normalizable(Lift(v)) ==> SqrMagnitude2(r) == 1.0 && Aligned(Lift(r), Lift(v))
    ensures !Normalizable(Lift(v)) ==> r == Zero2
  {
    var n := Normalized(sqrt, Lift(v));
    assert Normalizable(Lift(v)) ==> n.z == 0.0 by {
      if Normalizable(Lift(v)) {
        var m := Magnitude(sqrt, Lift(v));
        assert n == Scale(Lift(v), 1.0 / m);
      }
    }
    Vec2(n.x, n.y)
  }

  // ---- Algebra ----

  /** Only the zero vector has squared length zero. */
  lemma SqrMagnitudeZero(v: Vec3)
    ensures SqrMagnitude(v) == 0.0 <==> v == Zero3
  {
    if v.x != 0.0 {
      SqPos(v.x);
    } else if v.y != 0.0 {
      SqPos(v.y);
    } else if v.z != 0.0 {
      SqPos(v.z);
    }
  }

  lemma SqrMagnitudeScale(v: Vec3, k: real)
    ensures SqrMagnitude(Scale(v, k)) == Sq(k) * SqrMagnitude(v)
  {
    SqMul(v.x, k);
    SqMul(v.y, k);
    SqMul(v.z, k);
  }

  lemma ScaleAligned(v: Vec3, k: real)
    requires k >= 0.0
    ensures Aligned(Scale(v, k), v)
  {
    var w := Scale(v, k);
    ScaledCrossTerm(v.y, v.z, k);
    ScaledCrossTerm(v.z, v.x, k);
    ScaledCrossTerm(v.x, v.y, k);
    assert Cross(w, v) == Zero3;
    var s := SqrMagnitude(v);
    assert (v.x * k) * v.x + (v.y * k) * v.y + (v.z * k) * v.z == k * (Sq(v.x) + Sq(v.y) + Sq(v.z));
    assert Dot(w, v) == k * s;
    MulNonneg(k, s);
  }

  lemma ScaledCrossTerm(a: real, b: real, k: real)
    ensures (a * k) * b - (b * k) * a == 0.0
  {
  }

  /** For non-negative roots, comparing roots and comparing squares agree. */
  lemma RootAboveEpsilon(m: real, s: real)
    requires m >= 0.0 && Sq(m) == s
    ensures m > NormalizeEpsilon <==> s > Sq(NormalizeEpsilon)
  {
    var e := NormalizeEpsilon;
    if m > e {
      MulPos(m - e, m + e);
    } else {
      MulNonneg(e - m, e + m);
    }
  }

  lemma ScaleByInverseRoot(v: Vec3, m: real)
    requires m > 0.0 && Sq(m) == SqrMagnitude(v)
    ensures SqrMagnitude(Scale(v, 1.0 / m)) == 1.0
    ensures Aligned(Scale(v, 1.0 / m), v)
  {
    var k := 1.0 / m;
    SqrMagnitudeScale(v, k);
    assert k * m == 1.0;
    calc {
      Sq(k) * SqrMagnitude(v);
      Sq(k) * (Sq(m));
      Sq(k * m);
      1.0;
    }
    ScaleAligned(v, k);
  }

  lemma DotSubScale(a: Vec3, n: Vec3, k: real, b: Vec3)
    ensures Dot(Sub(a, Scale(n, k)), b) == Dot(a, b) - k * Dot(n, b)
  {
  }

  lemma CrossSubScale(a: Vec3, n: Vec3, k: real)
    ensures Cross(Sub(a, Scale(n, k)), n) == Cross(a, n)
  {
  }

  /** Scaling keeps a vector on the line of another; a non-negative factor also keeps its sense. */
  lemma ScaleKeepsAlignment(a: Vec3, b: Vec3, k: real)
    requires Aligned(a, b)
    ensures Cross(Scale(a, k), b) == Zero3
    ensures k >= 0.0 ==> Aligned(Scale(a, k), b)
  {
    var c := Cross(a, b);
    var w := Scale(a, k);
    assert Cross(w, b) == Scale(c, k);
    assert Dot(w, b) == k * Dot(a, b);
    if k >= 0.0 {
      MulNonneg(k, Dot(a, b));
    }
  }

  /** A unit vector on the line of `f`, scaled by `k`: length |k|, still on that line. */
  lemma ScaleUnitAlong(n: Vec3, f: Vec3, k: real)
    requires SqrMagnitude(n) == 1.0 && Aligned(n, f)
    ensures SqrMagnitude(Scale(n, k)) == Sq(k)
    ensures Cross(Scale(n, k), f) == Zero3
    ensures k >= 0.0 ==> Aligned(Scale(n, k), f)
  {
    SqrMagnitudeScale(n, k);
    ScaleKeepsAlignment(n, f, k);
  }

  lemma NormalizedIsScale(sqrt: real -> real, v: Vec3)
    requires IsSqrt(sqrt)
    requires Normalizable(v)
    ensures 1.0 / Magnitude(sqrt, v) > 0.0
    ensures Normalized(sqrt, v) == Scale(v, 1.0 / Magnitude(sqrt, v))
  {
  }

  /** A vector with a unit first component is long enough to normalise. */
  lemma AxisNormalizable(v: Vec3)
    requires v.x == 1.0 || v.x == -1.0
    ensures SqrMagnitude(v) >= 1.0 && Normalizable(v)
  {
    assert Sq(v.x) == 1.0;
  }

  /** Scaling twice by non-negative factors and then dropping z points the same way as dropping z first. */
  lemma FlattenScaledAligned(v: Vec3, k: real, s: real)
    requires k >= 0.0 && s >= 0.0
    ensures Aligned(Flatten(Scale(Scale(v, k), s)), Flatten(v))
  {
    MulNonneg(k, s);
    var f := Flatten(v);
    assert Flatten(Scale(Scale(v, k), s)) == Scale(f, k * s) by {
      assert (v.x * k) * s == v.x * (k * s);
      assert (v.y * k) * s == v.y * (k * s);
    }
    ScaleAligned(f, k * s);
  }

  /** Dropping the third component never lengthens a vector, and leaves a flat one unchanged. */
  lemma FlattenShortens(v: Vec3)
    ensures SqrMagnitude(Flatten(v)) <= SqrMagnitude(v)
    ensures v.z == 0.0 ==> Flatten(v) == v
  {
  }

  // ---- Properties ----

  /** Normalizing a unit vector returns it unchanged. */
  lemma NormalizedUnit(sqrt: real -> real, v: Vec3)
    requires IsSqrt(sqrt)
    requires SqrMagnitude(v) == 1.0
    ensures Normalized(sqrt, v) == v
  {
    UniqueRoot(Magnitude(sqrt, v), 1.0);
  }

  /** `normalized` is idempotent. */
  lemma NormalizedIdempotent(sqrt: real -> real, v: Vec3)
    requires IsSqrt(sqrt)
    ensures Normalized(sqrt, Normalized(sqrt, v)) == Normalized(sqrt, v)
  {
    if Normalizable(v) {
      NormalizedUnit(sqrt, Normalized(sqrt, v));
    }
  }

  /** Scaling a unit vector by a length above the threshold and normalising gives the unit vector back. */
  lemma NormalizedScaledUnit(sqrt: real -> real, n: Vec3, k: real)
    requires IsSqrt(sqrt)
    requires SqrMagnitude(n) == 1.0
    requires k > NormalizeEpsilon
    ensures Normalized(sqrt, Scale(n, k)) == n
  {
    var w := Scale(n, k);
    SqrMagnitudeScale(n, k);
    SqMonotone(NormalizeEpsilon, k);
    assert Normalizable(w);
    UniqueRoot(Magnitude(sqrt, w), k);
    NormalizedIsScale(sqrt, w);
    ScaleInverse(n, k);
  }

  lemma ScaleInverse(v: Vec3, k: real)
    requires k != 0.0
    ensures Scale(Scale(v, k), 1.0 / k) == v
  {
    var i := 1.0 / k;
    assert k * i == 1.0;
    assert (v.x * k) * i == v.x * (k * i);
    assert (v.y * k) * i == v.y * (k * i);
    assert (v.z * k) * i == v.z * (k * i);
  }

  /** `Vector2.normalized` seen in the plane z = 0 is `Vector3.normalized`. */
  lemma LiftNormalized2(sqrt: real -> real, v: Vec2)
    requires IsSqrt(sqrt)
    ensures Lift(Normalized2(sqrt, v)) == Normalized(sqrt, Lift(v))
  {
  }

  /** Reflecting twice about the same unit normal gives the original vector back. */
  lemma ReflectInvolution(v: Vec3, n: Vec3)
    requires SqrMagnitude(n) == 1.0
    ensures Reflect(Reflect(v, n), n) == v
  {
    var k := 2.0 * Dot(v, n);
    var r := Reflect(v, n);
    assert r == Sub(v, Scale(n, k));
    assert 2.0 * Dot(r, n) == -k;
    SubScaleCancel(v, n, k);
  }

  /** Taking `k n` away and then `-k n` away again restores the vector. */
  lemma SubScaleCancel(v: Vec3, n: Vec3, k: real)
    ensures Sub(Sub(v, Scale(n, k)), Scale(n, -k)) == v
  {
    assert n.x * -k == -(n.x * k);
    assert n.y * -k == -(n.y * k);
    assert n.z * -k == -(n.z * k);
  }
}
